=== FILE: README.md ===
# Emotion dashboard — a Dafny model of its list processing

The emotion demo pairs a small prediction server with a browser dashboard.
The server scores a comment against a fixed set of emotion labels and returns
the labels at or above a threshold, plus the best K. The dashboard keeps every
result in a history held newest first. From that history it computes label
counts, a distribution, a rolling trend, two headline numbers and a searchable
list. This project models the deterministic list processing of both halves as
pure Dafny functions over immutable datatypes, and proves their contracts.

Modules, in dependency order:

- `Wrappers`: `Option` and `Result`.
- `Types`: `LabelScore` and `Prediction`, and the label lists drawn from a history.
- `Seqs`: `filter`, `reverse` and `slice`, with permutation helpers.
- `Sorting`: a stable sort by a real key. Every sort in the system is stable: Python's `sorted`, and `Array.prototype.sort` since ECMAScript 2019. A descending sort is the ascending sort on the negated key.
- `Counting`: the `Map` counting pass, as an association list in first-insertion order.
- `Text`: `trim`, `split`, ASCII `toLowerCase`, `includes` and the default string order.
- `Stats`: `mean`, `percentile`, `topEmotions` and `emotionDistribution`.
- `Trend`: `rollingTrend`. A point is one `map<string, int>` whose key `"i"` holds the position. A requested label named `"i"` overwrites the position, just as in the object literal.
- `Store`: `add`, `addMany`, `clear` and `safeParse`.
- `Backend`: the pure part of the `/predict` handler.
- `Analyze`: `callPredict`, `runSingle`, `runBatch` and the batch lines.
- `Dashboard`: `strongShare`, `avgDetected` and the wiring of the charts.
- `Explore`: the `explored` filter and sort, and `uniqueLabels`.

The outside world enters as parameters:

- A single run (`Analyze.RunSingle`) takes the route's reply, the generated id and the time as arguments.
- A batch run takes them as functions of the request number n: the reply to the n-th request, the n-th id and the time after the n-th reply (`Analyze.Env`).
- `JSON.parse` is a function returning a `Store.Parsed` value, and `JSON.stringify` a function to strings; `localStorage` is a map from keys to strings.
- The model's probabilities are a `seq<real>`.

Numbers are exact: scores and percentages are `real`, and timestamps and counts are unbounded `int`.

## Model

| member | source | states |
|---|---|---|
| Types.DetectedLabelsPermutation | web/lib/stats.ts:17-21 | reordering the predictions does not change which labels are detected, or how often |
| Seqs.FilterAppend | web/app/page.tsx:90 | `filter` keeps order: filtering a concatenation filters each part, in turn |
| Sorting.SortBy | web/lib/stats.ts:44 | the result is sorted by the key, is a permutation of the input, and keeps elements with equal keys in their input order |
| Sorting.SortByCharacterized | backend/app.py:99 | any sorted, stable permutation of the input is exactly the result of the stable sort |
| Sorting.StableKeepsOrder | backend/app.py:99 | two elements with equal keys appear in the output in the order they had in the input |
| Counting.Tally | web/lib/stats.ts:16-21 | the counting `Map` has one entry per distinct label, each counting that label's occurrences, in order of first occurrence |
| Counting.TallyTotal | web/lib/stats.ts:16-21 | the counts of the `Map` add up to the number of labels counted |
| Stats.Mean | web/lib/stats.ts:3-6 | zero for no numbers; otherwise the value that, taken once per number, gives the sum |
| Stats.MeanBounds | web/lib/stats.ts:3-6 | the mean of numbers between lo and hi lies between lo and hi |
| Stats.Percentile | web/lib/stats.ts:8-13 | zero for no numbers; otherwise an element of the input with fewer than idx+1 input numbers below it and more than idx at or below it, idx being the clamped rank of p: the idx-th smallest number; the minimum for p <= 0 and the maximum for p >= 100 |
| Stats.RankIndex | web/lib/stats.ts:11 | the rank lies in [0, n-1]: 0 for p <= 0, n-1 for p >= 100, and otherwise the whole number idx with idx <= p/100*n < idx+1 |
| Stats.PercentileMonotone | web/lib/stats.ts:10-12 | a larger p never gives a smaller percentile |
| Stats.PercentileOfSorted | web/lib/stats.ts:10-12 | on numbers already in ascending order the percentile is the number at the clamped rank |
| Stats.PercentileExample | web/lib/stats.ts:8-13 | the 50th percentile of 1, 2, 3, 4, 5 is 3 |
| Stats.RankedTally | web/lib/stats.ts:22-24 | the entries of the `Map`, sorted by count: each label of the input once, with its exact count, counts non-increasing, equal counts in first-seen order |
| Stats.TopEmotions | web/lib/stats.ts:15-26 | as many labels as `slice(0, topN)` keeps of the distinct detected labels, ranked as above; a detected label left out ranks behind every listed one (detected no more often, and on a tie first detected later), and is left out only when topN labels are listed |
| Stats.EmotionDistribution | web/lib/stats.ts:28-39 | every label of every `top` list is ranked with its exact count, nothing is cut off, and the counts add up to the number of `top` entries |
| Trend.Window | web/lib/stats.ts:47-48 | the window is the min(w, k+1) items ending with item k (none for w <= 0) |
| Trend.Zeroed | web/lib/stats.ts:49-50 | every requested label becomes a key with value 0 and other keys keep their values |
| Trend.CountInto | web/lib/stats.ts:51-55 | each requested key grows by the number of occurrences of its label and no other key changes |
| Trend.RollingTrend | web/lib/stats.ts:41-59 | one point per prediction; for every k, point k has the key "i" and a key per requested label and no other, each label counts its detections among items max(0, k-w+1)..k of the stable oldest-first order, and "i" holds k+1 unless a label named "i" was requested |
| Trend.TrendLastIsTotal | web/lib/stats.ts:47-55 | with a window at least as long as the history, the last point counts every detection in the history |
| Trend.TrendMonotoneInWindow | web/lib/stats.ts:47-48 | widening the window never lowers a count |
| Trend.ThreeItemExample | web/lib/stats.ts:41-59 | three time-ordered predictions of one label with window 2 give positions 1, 2, 3 and counts 1, 2, 2 |
| Store.Add | web/lib/store.ts:33 | the new prediction comes first and the previous history follows unchanged |
| Store.AddMany | web/lib/store.ts:34 | the batch reversed, then the previous history unchanged: the last element of the batch comes first |
| Store.AddManyIsRepeatedAdd | web/lib/store.ts:33-34 | adding a batch at once equals adding its elements one by one in order |
| Store.Clear | web/lib/store.ts:35 | the history is empty whatever it held |
| Store.SafeParse | web/lib/store.ts:8-17 | no stored value or the empty string gives an empty history, as do a parse failure and a value that is not an array; an array is returned as parsed |
| Store.Persist | web/lib/store.ts:26-28 | the history's key now holds the serialised history, and every other stored entry is unchanged |
| Store.LoadFresh | web/lib/store.ts:22-24 | with nothing stored the page starts with an empty history |
| Store.ReloadRestores | web/lib/store.ts:19-38 | after any sequence of add, addMany and clear, each followed by the persisting effect, reloading the page decodes exactly the history the session ended with (provided `JSON.parse` reads that history's serialisation back), and no other storage entry is touched |
| Backend.EffectiveThreshold | backend/app.py:77 | 0.2 when the field is left out (its declared default at line 57), 0.5 when it is sent as null, otherwise the value sent |
| Backend.EffectiveTopK | backend/app.py:78-79 | always in [1, 20]; a left-out, null or zero value becomes 5; values in range are kept, larger ones become 20 and negative ones 1 |
| Backend.Scored | backend/app.py:96-98 | one entry per probability, pairing label i with probability i; more probabilities than labels is an index error |
| Backend.SortScores | backend/app.py:99 | a permutation of the scored entries with non-increasing scores, equal scores in index order |
| Backend.SortKeepsTies | backend/app.py:99 | two entries with equal scores keep their index order |
| Backend.Over | backend/app.py:101 | exactly the entries scoring at least the threshold, and they form a prefix of the sorted list |
| Backend.Top | backend/app.py:102 | the first min(k, n) entries of the sorted list |
| Backend.Predict | backend/app.py:77-110 | succeeds exactly when every probability has a label; echoes the text and the effective threshold; the detected labels are the entries of the stable best-first order at or above the threshold, and `top` its first top_k entries; both lists are best first and one is a prefix of the other; an entry left out of `top` scores no more than any entry in it |
| Analyze.CallPredict | web/app/page.tsx:42-70 | a reply that is not ok fails with its error, or "Prediction failed" when that is missing or empty; an ok reply becomes a prediction copying text, threshold, top and detected labels verbatim, with the given id and time |
| Analyze.PredictionFromServer | web/app/page.tsx:62-69 | a prediction made from a server response carries the text sent, the effective threshold, only labels at or above it, and at most 20 top labels, best first |
| Analyze.RunSingle | web/app/page.tsx:72-84 | success clears the error, shows the prediction and puts it first in the history; failure leaves history and shown result unchanged and shows a non-empty error; the tab never changes |
| Analyze.BatchLines | web/app/page.tsx:87-90 | no batch line is empty; which lines there are, and their order, is stated by `Analyze.BatchLinesAppend` and `Analyze.BatchLinesSingle` |
| Analyze.BatchLinesAppend | web/app/page.tsx:87-90 | the lines of two texts joined by a line break are the first text's lines followed by the second's |
| Analyze.BatchLinesSingle | web/app/page.tsx:87-90 | a text without a line break gives no line when it is blank and otherwise the one line it trims to |
| Analyze.BatchLinesTrimmed | web/app/page.tsx:87-90 | every batch line is already trimmed |
| Analyze.BatchLinesEmptyIff | web/app/page.tsx:87-92 | a batch has no lines exactly when its text is all white space |
| Analyze.BatchLinesRoundTrip | web/app/page.tsx:87-90 | trimmed, non-empty lines joined by line breaks come back unchanged and in order |
| Analyze.SendAll | web/app/page.tsx:97-102 | the requests go out in line order; the first failure stops the loop with its error; otherwise the predictions are collected in line order |
| Analyze.RunBatch | web/app/page.tsx:86-111 | no lines: nothing changes; all requests succeed: the whole batch is added by one `addMany`, the first line's prediction is shown, the error is cleared and the dashboard tab is selected; first failure: nothing is committed, the tab is kept and its error is shown |
| Analyze.BatchOrder | web/app/page.tsx:103-104 | after a successful batch the history starts with the last line's prediction and the old history follows, while the first line's prediction is shown |
| Dashboard.StrongShare | web/app/page.tsx:118-122 | 0 for an empty history; otherwise the percentage of predictions with a detection, in [0, 100] |
| Dashboard.StrongShareFull | web/app/page.tsx:118-122 | the share is 100 exactly when every prediction detected some label |
| Dashboard.StrongShareNone | web/app/page.tsx:118-122 | the share is 0 exactly when no prediction detected anything |
| Dashboard.AvgDetected | web/app/page.tsx:124-127 | 0 for an empty history; otherwise all detected labels divided by the number of predictions |
| Dashboard.AvgDetectedBetween | web/app/page.tsx:124-127 | the average lies between the fewest and the most labels any one prediction detected |
| Dashboard.Summarize | web/app/page.tsx:113-127 | the top counts are `topEmotions` with 6, the distribution the first 12 entries of `emotionDistribution`, the trend the rolling trend over exactly the charted labels with window 10 and one point per prediction, and the two headline numbers are `strongShare` and `avgDetected` |
| Dashboard.SummaryTrend | web/app/page.tsx:115-116 | each trend point counts a charted label's detections among the last ten predictions in time order |
| Dashboard.SummaryTopOmits | web/app/page.tsx:113-115 | an uncharted detected label ranks behind every charted one (detected no more often, first detected later on a tie), and is left out only when six are charted |
| Dashboard.SummaryDistributionOmits | web/app/page.tsx:114 | a `top` label missing from the distribution chart ranks behind every charted entry, and is left out only when twelve are charted |
| Explore.MaxOf | web/app/page.tsx:150-151 | the best score, or 0 for no labels: at least 0, at least every score, and either 0 or one of the scores |
| Explore.SelectedMatches | web/app/page.tsx:136-146 | the filters keep exactly the hits, each as often as it occurs in the history; a blank query or emotion filters nothing |
| Explore.EmotionMatchIff | web/app/page.tsx:143-146 | the emotion filter keeps a prediction exactly when one of its detected labels is the emotion with a score of at least `minScore` |
| Explore.Explored | web/app/page.tsx:135-158 | a permutation of the hits, sorted by the chosen key; for every key value, the listed predictions with that key are the hits among the history's predictions with that key, in history order |
| Explore.SelectedWithKey | web/app/page.tsx:136-146 | the hits with a given key are the hits among the predictions with that key |
| Explore.SelectedAppend | web/app/page.tsx:136-146 | the filters keep history order: the hits of a concatenation are the hits of its parts, in turn |
| Explore.SelectedSingle | web/app/page.tsx:136-146 | a single prediction is kept exactly when it is a hit |
| Explore.ExploredMembers | web/app/page.tsx:135-146 | a prediction is listed exactly when it is in the history and is a hit |
| Explore.ExploredUnfiltered | web/app/page.tsx:138-146 | with a blank query and a blank emotion every prediction is listed |
| Explore.ExploredNewest | web/app/page.tsx:148 | in "newest" order creation times never increase down the list |
| Explore.ExploredHighest | web/app/page.tsx:149-155 | in "highest" order the best detected scores never increase down the list |
| Explore.UniqueLabels | web/app/page.tsx:160-164 | strictly increasing in string order, containing exactly the labels of the `top` lists |
| Explore.UniqueLabelsDistinct | web/app/page.tsx:160-164 | no label is listed twice |
| Explore.StrictlySortedUnique | web/app/page.tsx:163 | a strictly sorted list is fixed by its elements, so the label list is the only ordered list of those labels |
| Text.Trim | web/app/page.tsx:89 | the result is a slice of the input that neither starts nor ends with white space |
| Text.TrimIdempotent | web/app/page.tsx:89 | trimming twice is trimming once |
| Text.TrimEmptyIff | web/app/page.tsx:89 | a string trims to nothing exactly when it is all white space |
| Text.Split | web/app/page.tsx:88 | at least one piece, no piece holds the separator, and joining the pieces gives the text back |
| Text.SplitJoin | web/app/page.tsx:88 | splitting pieces joined by a separator they do not contain gives the pieces back |
| Text.SplitAppend | web/app/page.tsx:88 | splitting a text at one separator splits the two sides on their own |
| Text.SplitNoSeparator | web/app/page.tsx:88 | a text without the separator is one piece |
| Text.Contains | web/app/page.tsx:140 | true exactly when the needle occurs as a contiguous slice of the text |
| Text.LexLessTransitive | web/app/page.tsx:163 | the default string order is transitive, and with `LexLessTotal` and `LexLessIrreflexive` a strict total order |

## Left out

- Browser I/O and React: state setters, re-rendering and when effects run. The model keeps the pure updaters, the values the page derives, and the storage effects as one load at mount and one write after each update. On mount React also writes the initial empty history once before the loaded one is committed; the model leaves that write out, since the next write replaces it.
- `JSON.parse` and `JSON.stringify`: they are parameters. `safeParse` does not check the elements of a parsed array, and neither does the model.
- Store.ReloadRestores: it assumes that `JSON.parse` reads back the serialisation of the final history as that array, for that one history only. The assumption fails for NaN or infinite scores, which `JSON.stringify` writes as `null`.
- The default arguments `topN = 8` of `topEmotions` (web/lib/stats.ts:15) and `windowSize = 10` of `rollingTrend` (web/lib/stats.ts:41): every call in the page passes both explicitly, so the model takes them as ordinary arguments.
- The network: `fetch`, the Next.js route in web/app/api/predict/route.ts and its 502 envelopes. The route's reply is an input `Analyze.Reply`. An `error` field that is not a string is not modelled.
- `crypto.randomUUID`, `Date.now` and `performance.now`: they are inputs.
- The `running` flag and the button disabling it drives: UI state with no effect on the history.
- `Store.AddMany`: `ps.reverse()` also reverses the caller's array in place. Whether `out[0]` at web/app/page.tsx:104 then names the first or the last line's prediction depends on when React runs the updater. The model treats `addMany` as non-mutating and shows the first line's prediction.
- The model loading, tokenisation, forward pass, sigmoid and latency timing of backend/app.py, and the HTTP 500 on a failed model load: machine-learning library calls and floats. The probabilities are an input.
- pydantic's coercion of request fields: `threshold` and `top_k` arrive as a real or an integer, left out or null.
- IEEE floating point: NaN scores, rounding in `mean` and `percentile`, `toFixed` formatting. All arithmetic is exact.
- Strings are sequences of Unicode scalar values:
  - `Text.LowerChar` lowers ASCII letters only, where `toLowerCase` applies full Unicode case mapping.
  - `Text.LexLess` compares code points, where JavaScript compares UTF-16 code units; the two differ only for characters outside the Basic Multilingual Plane.
- Keys such as `__proto__` that behave specially on a plain object: `Trend` treats a point as a plain map.
- The training code, the chart components, the UI kit, layout and configuration.

=== FILE: analyze.dfy ===
/** The "Analyze" panel of the dashboard page (web/app/page.tsx): turning a
    reply of the prediction route into a stored `Prediction`, and what a
    single run and a batch run commit to the history. The network, the id
    generator and the clock are inputs indexed by request number. */
module Analyze {
  import opened Wrappers
  import opened Types
  import opened Seqs
  import opened Text
  import opened Store
  import Backend

  /** What `fetch("/api/predict")` and `r.json()` deliver: an `{ ok: true, data }`
      envelope, an `{ ok: false, error }` envelope (`error` possibly missing),
      or an exception with its message. */
  datatype Reply = Ok(data: Backend.PredictOut) | NotOk(error: Option<string>) | Thrown(message: string)

  /** The message `callPredict` throws when the envelope has no usable `error`. */
  const PredictionFailed: string := "Prediction failed"
  /** The fallback message of a single run. */
  const SingleFailed: string := "Prediction failed. Make sure the backend is running on port 8000."
  /** The fallback message of a batch run. */
  const BatchFailed: string := "Batch failed. Make sure the backend is running on port 8000."

  /** `callPredict`: an envelope that is not `ok` throws its `error` (or the
      default message when it is missing or empty); an `ok` envelope becomes a
      new prediction that copies `text`, `threshold`, `top` and the detected
      labels verbatim, stamped with a fresh id and the current time. */
  function CallPredict(reply: Reply, id: string, now: int): (r: Result<Prediction, string>)
    ensures r.Success? <==> reply.Ok?
    ensures reply.Ok? ==> r.value.id == id && r.value.createdAt == now
    ensures reply.Ok? ==> r.value.text == reply.data.text && r.value.threshold == reply.data.threshold
    ensures reply.Ok? ==> r.value.top == reply.data.top && r.value.labelsOverThreshold == reply.data.labelsOverThreshold
    ensures reply.NotOk? ==> r.error != ""
    ensures reply.NotOk? && reply.error.Some? && reply.error.value != "" ==> r.error == reply.error.value
    ensures reply.NotOk? && (reply.error.None? || reply.error.value == "") ==> r.error == PredictionFailed
    ensures reply.Thrown? ==> r.error == reply.message
  {
    match reply
    case Ok(data) => Success(Prediction(id, data.text, now, data.threshold, data.top, data.labelsOverThreshold))
    case NotOk(e) => Failure(if e.Some? && e.value != "" then e.value else PredictionFailed)
    case Thrown(m) => Failure(m)
  }

  /** A prediction made from a successful server response carries the text
      sent, the effective threshold, only labels at or above that threshold,
      and at most twenty top labels, best first. */
  lemma PredictionFromServer(text: string, threshold: Backend.Field<real>, topK: Backend.Field<int>,
                             names: seq<string>, probs: seq<real>, out: Backend.PredictOut, id: string, now: int)
    requires Backend.Predict(text, threshold, topK, names, probs) == Success(out)
    ensures var p := CallPredict(Ok(out), id, now).value;
            && p.text == text && p.threshold == Backend.EffectiveThreshold(threshold)
            && (forall i :: 0 <= i < |p.labelsOverThreshold| ==> p.labelsOverThreshold[i].score >= p.threshold)
            && |p.top| <= Backend.MaxTopK
            && Backend.ScoresNonIncreasing(p.top)
  {
    AllAtLeast(out.labelsOverThreshold, Backend.EffectiveThreshold(threshold), Backend.Scored(names, probs).value);
  }

  lemma AllAtLeast(over: seq<LabelScore>, t: real, scored: seq<LabelScore>)
    requires forall x :: multiset(over)[x] == if x.score >= t then multiset(scored)[x] else 0
    ensures forall i :: 0 <= i < |over| ==> over[i].score >= t
  {
    forall i | 0 <= i < |over|
      ensures over[i].score >= t
    {
      assert over[i] in multiset(over);
    }
  }

  /** The tabs of the page. */
  datatype Tab = AnalyzeTab | DashboardTab | ExploreTab

  /** The page state a run touches: the history, the last result shown, the
      error banner and the selected tab. */
  datatype Session = Session(items: seq<Prediction>, last: Option<Prediction>, error: string, tab: Tab)

  /** `e?.message || fallback`. */
  function Message(m: string, fallback: string): (r: string)
    ensures r != "" <== fallback != ""
    ensures m != "" ==> r == m
  {
    if m != "" then m else fallback
  }

  /** `runSingle`: the error is cleared; a successful call shows the new
      prediction and adds it in front of the history; a failed call leaves
      history and result untouched and shows an error. The tab is kept. */
  function RunSingle(s: Session, reply: Reply, id: string, now: int): (s': Session)
    ensures s'.tab == s.tab
    ensures reply.Ok? ==> s'.error == "" && s'.items == Add(s.items, CallPredict(reply, id, now).value)
                          && s'.last == Some(CallPredict(reply, id, now).value)
    ensures !reply.Ok? ==> s'.items == s.items && s'.last == s.last && s'.error != ""
  {
    match CallPredict(reply, id, now)
    case Success(p) => s.(items := Add(s.items, p), last := Some(p), error := "")
    case Failure(e) => s.(error := Message(e, SingleFailed))
  }

  // ----------------------------------------------------------------- batch

  /** `(s) => s.trim()` over every piece. */
  function TrimAll(parts: seq<string>): (r: seq<string>)
    ensures |r| == |parts|
    ensures forall i :: 0 <= i < |parts| ==> r[i] == Trim(parts[i])
  {
    if |parts| == 0 then [] else [Trim(parts[0])] + TrimAll(parts[1..])
  }

  /** `filter(Boolean)` on strings: the non-empty ones. */
  function NonEmpty(s: string): bool { |s| > 0 }

  /** `batchText.split("\n").map((s) => s.trim()).filter(Boolean)`. */
  function BatchLines(text: string): (lines: seq<string>)
    ensures forall i :: 0 <= i < |lines| ==> lines[i] != []
  {
    Filter(TrimAll(Split(text, '\n')), NonEmpty)
  }

  /** Every trimmed piece is already trimmed. */
  lemma TrimAllTrimmed(parts: seq<string>)
    ensures forall x :: x in TrimAll(parts) ==> Trim(x) == x
  {
    forall x | x in TrimAll(parts)
      ensures Trim(x) == x
    {
      var j :| 0 <= j < |parts| && TrimAll(parts)[j] == x;
      TrimIdempotent(parts[j]);
    }
  }

  /** Each line of a batch is a trimmed, non-empty piece of the text between
      two line breaks, so a line never starts or ends with white space. */
  lemma BatchLinesTrimmed(text: string)
    ensures forall i :: 0 <= i < |BatchLines(text)| ==> Trim(BatchLines(text)[i]) == BatchLines(text)[i]
  {
    var pieces := TrimAll(Split(text, '\n'));
    var lines := BatchLines(text);
    TrimAllTrimmed(Split(text, '\n'));
    forall i | 0 <= i < |lines|
      ensures Trim(lines[i]) == lines[i]
    {
      assert multiset(lines)[lines[i]] > 0;
      assert lines[i] in pieces;
    }
  }

  /** A batch has no lines exactly when the text is nothing but white space
      (line breaks included). */
  lemma BatchLinesEmptyIff(text: string)
    ensures |BatchLines(text)| == 0 <==> AllSpace(text)
  {
    var parts := Split(text, '\n');
    var trimmed := TrimAll(parts);
    FilterEmptyIff(trimmed, NonEmpty);
    forall i | 0 <= i < |parts|
      ensures !NonEmpty(trimmed[i]) <==> AllSpace(parts[i])
    {
      TrimEmptyIff(parts[i]);
    }
    assert IsSpace('\n');
    AllSpaceJoin(parts, '\n');
  }

  /** Lines that are already trimmed, non-empty and free of line breaks come
      back from a batch text that joins them, unchanged and in order. */
  lemma BatchLinesRoundTrip(lines: seq<string>)
    requires |lines| > 0
    requires forall i :: 0 <= i < |lines| ==> lines[i] != [] && Trim(lines[i]) == lines[i] && '\n' !in lines[i]
    ensures BatchLines(Join(lines, '\n')) == lines
  {
    SplitJoin(lines, '\n');
    TrimAllFixed(lines);
    FilterKeepsAll(lines, NonEmpty);
  }

  /** Lines are read in order: the lines of two texts joined by a line break
      are the lines of the first followed by the lines of the second. */
  lemma BatchLinesAppend(a: string, b: string)
    ensures BatchLines(a + "\n" + b) == BatchLines(a) + BatchLines(b)
  {
    var p, q := Split(a, '\n'), Split(b, '\n');
    SplitAppend(a, b, '\n');
    TrimAllAppend(p, q);
    FilterAppend(TrimAll(p), TrimAll(q), NonEmpty);
  }

  lemma {:induction false} TrimAllAppend(p: seq<string>, q: seq<string>)
    ensures TrimAll(p + q) == TrimAll(p) + TrimAll(q)
    decreases |p|
  {
    if |p| == 0 {
      assert p + q == q;
    } else {
      ConsAppend(p, q);
      TrimAllAppend(p[1..], q);
      AppendAssoc([Trim(p[0])], TrimAll(p[1..]), TrimAll(q));
    }
  }

  /** A text without a line break is one line, trimmed, unless it is blank. */
  lemma BatchLinesSingle(s: string)
    requires '\n' !in s
    ensures BatchLines(s) == if AllSpace(s) then [] else [Trim(s)]
  {
    SplitNoSeparator(s, '\n');
    assert TrimAll([s]) == [Trim(s)];
    TrimEmptyIff(s);
    assert Filter([Trim(s)], NonEmpty) == (if NonEmpty(Trim(s)) then [Trim(s)] else []) + Filter([], NonEmpty);
  }

  lemma TrimAllFixed(parts: seq<string>)
    requires forall i :: 0 <= i < |parts| ==> Trim(parts[i]) == parts[i]
    ensures TrimAll(parts) == parts
  {
  }

  /** The outside world as the page sees it: the route's reply to the `n`-th
      request with a given text, the `n`-th generated id and the time after
      the `n`-th reply. */
  datatype Env = Env(server: (nat, string) -> Reply, ids: nat -> string, clock: nat -> int)

  /** The outcome of the batch's `j`-th request, which sends line `j`. */
  function Outcome(lines: seq<string>, env: Env, j: nat): Result<Prediction, string>
    requires j < |lines|
  {
    CallPredict(env.server(j, lines[j]), env.ids(j), env.clock(j))
  }

  /** Requests `0 .. j - 1` succeed and request `j` fails: the loop stops there. */
  ghost predicate FirstFailure(lines: seq<string>, env: Env, j: nat)
  {
    j < |lines| && Outcome(lines, env, j).Failure?
    && forall k :: 0 <= k < j ==> Outcome(lines, env, k).Success?
  }

  /** Every request of the batch succeeds. */
  ghost predicate AllSucceed(lines: seq<string>, env: Env)
  {
    forall k :: 0 <= k < |lines| ==> Outcome(lines, env, k).Success?
  }

  /** The predictions of a fully successful batch, in line order. */
  function Collected(lines: seq<string>, env: Env): (out: seq<Prediction>)
    requires AllSucceed(lines, env)
    ensures |out| == |lines|
    ensures forall k :: 0 <= k < |lines| ==> out[k] == Outcome(lines, env, k).value
  {
    seq(|lines|, k requires 0 <= k < |lines| && AllSucceed(lines, env) => Outcome(lines, env, k).value)
  }

  /** The loop of `runBatch`: the lines are sent one after another and the
      first failure ends it; otherwise every prediction is collected, in line
      order. */
  method SendAll(lines: seq<string>, env: Env) returns (r: Result<seq<Prediction>, string>)
    ensures r.Success? <==> AllSucceed(lines, env)
    ensures r.Success? ==> r.value == Collected(lines, env)
    ensures forall j :: FirstFailure(lines, env, j) ==> r == Failure(Outcome(lines, env, j).error)
  {
    var out: seq<Prediction> := [];
    var i := 0;
    while i < |lines|
      invariant 0 <= i <= |lines| && |out| == i
      invariant forall k :: 0 <= k < i ==> Outcome(lines, env, k).Success? && out[k] == Outcome(lines, env, k).value
    {
      var p := CallPredict(env.server(i, lines[i]), env.ids(i), env.clock(i));
      if p.Failure? {
        assert FirstFailure(lines, env, i);
        FirstFailureUnique(lines, env, i);
        return Failure(p.error);
      }
      out := out + [p.value];
      i := i + 1;
    }
    NoFailure(lines, env);
    r := Success(out);
  }

  /** `runBatch`: no lines, no request and nothing changes (not even the error
      banner). Otherwise the lines are sent one after another; the first
      failure ends the batch with nothing committed and its message shown; if
      all succeed, the whole batch is added in one `addMany` (so the last line
      ends up first), the first line's prediction is shown and the page
      switches to the dashboard. */
  method RunBatch(s: Session, batchText: string, env: Env) returns (s': Session)
    ensures |BatchLines(batchText)| == 0 ==> s' == s
    ensures |BatchLines(batchText)| > 0 && AllSucceed(BatchLines(batchText), env) ==>
              s' == Session(AddMany(s.items, Collected(BatchLines(batchText), env)),
                            Some(Collected(BatchLines(batchText), env)[0]), "", DashboardTab)
    ensures forall j :: FirstFailure(BatchLines(batchText), env, j) ==>
              s' == s.(error := Message(Outcome(BatchLines(batchText), env, j).error, BatchFailed))
  {
    var lines := BatchLines(batchText);
    if |lines| == 0 {
      return s;
    }
    var r := SendAll(lines, env);
    match r
    case Failure(e) =>
      s' := s.(error := Message(e, BatchFailed));
    case Success(out) =>
      s' := Session(AddMany(s.items, out), Some(out[0]), "", DashboardTab);
  }

  /** There is at most one first failure. */
  lemma FirstFailureUnique(lines: seq<string>, env: Env, i: nat)
    requires FirstFailure(lines, env, i)
    ensures forall j :: FirstFailure(lines, env, j) ==> j == i
  {
  }

  /** A batch that fully succeeds has no first failure. */
  lemma NoFailure(lines: seq<string>, env: Env)
    requires AllSucceed(lines, env)
    ensures forall j :: !FirstFailure(lines, env, j)
  {
  }

  /** After a successful batch the history starts with the prediction of the
      batch's last line, while the result shown is that of its first line. */
  lemma BatchOrder(s: Session, lines: seq<string>, env: Env)
    requires |lines| > 0 && AllSucceed(lines, env)
    ensures AddMany(s.items, Collected(lines, env))[0] == Outcome(lines, env, |lines| - 1).value
    ensures Collected(lines, env)[0] == Outcome(lines, env, 0).value
    ensures AddMany(s.items, Collected(lines, env))[|lines|..] == s.items
  {
  }
}

=== FILE: backend.dfy ===
/** The post-processing of the prediction server's `/predict` handler
    (backend/app.py): request defaults, pairing label names with the model's
    probabilities, a stable descending sort, the threshold filter and the
    top-K cut. The probabilities are an input; the model is not modelled. */
module Backend {
  import opened Wrappers
  import opened Types
  import opened Seqs
  import opened Sorting

  /** A request field: left out of the JSON body, sent as `null`, or given. */
  datatype Field<T> = Omitted | Null | Given(value: T)

  /** The default of `threshold` when the field is left out. */
  const OmittedThreshold: real := 0.2
  /** The threshold used when `threshold` is sent as `null`. */
  const NullThreshold: real := 0.5
  /** The `top_k` used when the field is left out, `null` or zero. */
  const DefaultTopK: int := 5
  const MaxTopK: int := 20

  /** `float(inp.threshold) if inp.threshold is not None else 0.5`, where a left-out
      field already holds its declared default 0.2. */
  function EffectiveThreshold(f: Field<real>): (t: real)
    ensures f.Omitted? ==> t == OmittedThreshold
    ensures f.Null? ==> t == NullThreshold
    ensures f.Given? ==> t == f.value
  {
    match f
    case Omitted => OmittedThreshold
    case Null => NullThreshold
    case Given(v) => v
  }

  /** `max(1, min(20, int(inp.top_k or 5)))`: a falsy value (left out, `null`
      or 0) becomes 5, then the value is clamped to `[1, 20]`. */
  function EffectiveTopK(f: Field<int>): (k: int)
    ensures 1 <= k <= MaxTopK
    ensures f.Omitted? || f.Null? || f == Given(0) ==> k == DefaultTopK
    ensures f.Given? && 1 <= f.value <= MaxTopK ==> k == f.value
    ensures f.Given? && f.value > MaxTopK ==> k == MaxTopK
    ensures f.Given? && f.value < 0 ==> k == 1
  {
    var raw := if f.Given? && f.value != 0 then f.value else DefaultTopK;
    if raw > MaxTopK then MaxTopK else if raw < 1 then 1 else raw
  }

  /** `[{"label": names[i], "score": probs[i]} for i in range(len(probs))]`: one
      entry per probability; more probabilities than names raise `IndexError`. */
  function Scored(names: seq<string>, probs: seq<real>): (r: Result<seq<LabelScore>, string>)
    ensures r.Success? <==> |probs| <= |names|
    ensures r.Success? ==> |r.value| == |probs|
    ensures r.Success? ==> forall i :: 0 <= i < |probs| ==> r.value[i] == LabelScore(names[i], probs[i])
  {
    if |probs| <= |names| then
      Success(seq(|probs|, i requires 0 <= i < |probs| => LabelScore(names[i], probs[i])))
    else
      Failure("list index out of range")
  }

  /** The sort key of `sorted(..., key=score, reverse=True)`: higher scores first.
      Python's sort is stable also when reversed. */
  function ByScoreDesc(x: LabelScore): real { -x.score }

  /** Scores never increase along `s`. */
  ghost predicate ScoresNonIncreasing(s: seq<LabelScore>)
  {
    forall i, j :: 0 <= i < j < |s| ==> s[i].score >= s[j].score
  }

  /** `scored_sorted`: a rearrangement of `scored` by non-increasing score. */
  function SortScores(scored: seq<LabelScore>): (r: seq<LabelScore>)
    ensures multiset(r) == multiset(scored) && |r| == |scored|
    ensures ScoresNonIncreasing(r)
    ensures Stable(r, scored, ByScoreDesc)
  {
    var r := SortBy(scored, ByScoreDesc);
    assert ScoresNonIncreasing(r) by {
      forall i, j | 0 <= i < j < |r|
        ensures r[i].score >= r[j].score
      {
        assert ByScoreDesc(r[i]) <= ByScoreDesc(r[j]);
      }
    }
    r
  }

  /** Entries with equal scores keep the order they had in `scored`. */
  lemma SortKeepsTies(scored: seq<LabelScore>, i: nat, j: nat)
    requires i < j < |scored|
    requires SortScores(scored)[i].score == SortScores(scored)[j].score
    ensures exists a, b :: 0 <= a < b < |scored| && scored[a] == SortScores(scored)[i] && scored[b] == SortScores(scored)[j]
  {
    var r := SortScores(scored);
    assert ByScoreDesc(r[i]) == ByScoreDesc(r[j]);
    StableKeepsOrder(r, scored, ByScoreDesc, i, j);
  }

  /** The test of the threshold filter. */
  function AtLeast(t: real): LabelScore -> bool
  {
    (x: LabelScore) => x.score >= t
  }

  /** `over = [x for x in scored_sorted if x["score"] >= threshold]`: because
      the scores never increase, the entries that pass are a prefix, and every
      entry after it is below the threshold. */
  function Over(sorted: seq<LabelScore>, t: real): (r: seq<LabelScore>)
    requires ScoresNonIncreasing(sorted)
    ensures |r| <= |sorted| && r == sorted[..|r|]
    ensures forall i :: 0 <= i < |r| ==> r[i].score >= t
    ensures forall i :: |r| <= i < |sorted| ==> sorted[i].score < t
    ensures forall x :: multiset(r)[x] == if x.score >= t then multiset(sorted)[x] else 0
  {
    var r := Filter(sorted, AtLeast(t));
    OverPrefix(sorted, t);
    r
  }

  lemma {:induction false} OverPrefix(s: seq<LabelScore>, t: real)
    requires ScoresNonIncreasing(s)
    ensures |Filter(s, AtLeast(t))| <= |s|
    ensures Filter(s, AtLeast(t)) == s[..|Filter(s, AtLeast(t))|]
    ensures forall i :: |Filter(s, AtLeast(t))| <= i < |s| ==> s[i].score < t
    decreases |s|
  {
    if |s| > 0 {
      TailNonIncreasing(s);
      OverPrefix(s[1..], t);
      if s[0].score >= t {
        OverTake(s, t);
      } else {
        OverStop(s, t);
      }
    }
  }

  lemma TailNonIncreasing(s: seq<LabelScore>)
    requires |s| > 0 && ScoresNonIncreasing(s)
    ensures ScoresNonIncreasing(s[1..])
  {
    var tail := s[1..];
    forall i, j | 0 <= i < j < |tail|
      ensures tail[i].score >= tail[j].score
    {
      assert tail[i] == s[i + 1] && tail[j] == s[j + 1];
    }
  }

  /** The first entry passes: it leads the filtered list. */
  lemma OverTake(s: seq<LabelScore>, t: real)
    requires |s| > 0 && s[0].score >= t
    requires Filter(s[1..], AtLeast(t)) == s[1..][..|Filter(s[1..], AtLeast(t))|]
    requires forall i :: |Filter(s[1..], AtLeast(t))| <= i < |s| - 1 ==> s[1..][i].score < t
    ensures Filter(s, AtLeast(t)) == s[..|Filter(s, AtLeast(t))|]
    ensures forall i :: |Filter(s, AtLeast(t))| <= i < |s| ==> s[i].score < t
  {
    var rt := Filter(s[1..], AtLeast(t));
    FilterUnfold(s, AtLeast(t));
    assert AtLeast(t)(s[0]);
    ConsPrefix(s, |rt|);
    ShiftBelow(s, |rt|, t);
  }

  lemma ConsPrefix(s: seq<LabelScore>, n: nat)
    requires 0 < |s| && n < |s|
    ensures [s[0]] + s[1..][..n] == s[..n + 1]
  {
  }

  lemma ShiftBelow(s: seq<LabelScore>, n: nat, t: real)
    requires 0 < |s|
    requires forall i :: n <= i < |s| - 1 ==> s[1..][i].score < t
    ensures forall i :: n + 1 <= i < |s| ==> s[i].score < t
  {
    forall i | n + 1 <= i < |s|
      ensures s[i].score < t
    {
      assert s[i] == s[1..][i - 1];
    }
  }

  /** The first entry fails: so does every later one, and nothing passes. */
  lemma OverStop(s: seq<LabelScore>, t: real)
    requires |s| > 0 && s[0].score < t && ScoresNonIncreasing(s)
    ensures Filter(s, AtLeast(t)) == []
    ensures forall i :: 0 <= i < |s| ==> s[i].score < t
  {
    assert forall i :: 0 <= i < |s| ==> s[i].score <= s[0].score;
    NoneAtLeast(s[1..], t);
  }

  lemma {:induction false} NoneAtLeast(s: seq<LabelScore>, t: real)
    requires forall i :: 0 <= i < |s| ==> s[i].score < t
    ensures Filter(s, AtLeast(t)) == []
    decreases |s|
  {
    if |s| > 0 {
      NoneAtLeast(s[1..], t);
    }
  }

  /** `top = scored_sorted[:top_k]` for `top_k >= 1`. */
  function Top(sorted: seq<LabelScore>, k: int): (r: seq<LabelScore>)
    requires k >= 1
    ensures |r| == if k < |sorted| then k else |sorted|
    ensures r == sorted[..|r|]
  {
    if k < |sorted| then sorted[..k] else sorted
  }

  /** The body of a successful `/predict` response (`latency_ms` left out). */
  datatype PredictOut = PredictOut(
    text: string,
    threshold: real,
    labelsOverThreshold: seq<LabelScore>,
    top: seq<LabelScore>
  )

  /** `a` is a prefix of `b`. */
  ghost predicate IsPrefix(a: seq<LabelScore>, b: seq<LabelScore>)
  {
    |a| <= |b| && a == b[..|a|]
  }

  /** `predict` after the model ran: the response echoes the text and the
      effective threshold; `top` has `min(top_k, n)` entries; the detected
      labels are exactly the scored entries at or above the threshold; both
      lists are in non-increasing score order and one is a prefix of the other;
      nothing left out of `top` scores higher than anything in it. Both lists
      are cut from the one stable, score-descending order of the scored labels:
      the detected labels are its entries at or above the threshold, `top` its
      first `top_k`. */
  function Predict(text: string, threshold: Field<real>, topK: Field<int>,
                   names: seq<string>, probs: seq<real>): (r: Result<PredictOut, string>)
    ensures r.Success? <==> |probs| <= |names|
    ensures r.Success? ==> r.value.text == text && r.value.threshold == EffectiveThreshold(threshold)
    ensures r.Success? ==>
              r.value.labelsOverThreshold == Over(SortScores(Scored(names, probs).value), EffectiveThreshold(threshold))
    ensures r.Success? ==> r.value.top == Top(SortScores(Scored(names, probs).value), EffectiveTopK(topK))
    ensures r.Success? ==> |r.value.top| == if EffectiveTopK(topK) < |probs| then EffectiveTopK(topK) else |probs|
    ensures r.Success? ==>
              forall x :: multiset(r.value.labelsOverThreshold)[x] ==
                (if x.score >= EffectiveThreshold(threshold) then multiset(Scored(names, probs).value)[x] else 0)
    ensures r.Success? ==> ScoresNonIncreasing(r.value.labelsOverThreshold) && ScoresNonIncreasing(r.value.top)
    ensures r.Success? ==> IsPrefix(r.value.labelsOverThreshold, r.value.top) || IsPrefix(r.value.top, r.value.labelsOverThreshold)
    ensures r.Success? ==>
              forall x, i :: x in Scored(names, probs).value && x !in r.value.top && 0 <= i < |r.value.top| ==>
                x.score <= r.value.top[i].score
  {
    match Scored(names, probs)
    case Failure(e) => Failure(e)
    case Success(scored) =>
      var t := EffectiveThreshold(threshold);
      var k := EffectiveTopK(topK);
      var sorted := SortScores(scored);
      var over := Over(sorted, t);
      var top := Top(sorted, k);
      ResponseFacts(scored, sorted, over, top);
      Success(PredictOut(text, t, over, top))
  }

  lemma ResponseFacts(scored: seq<LabelScore>, sorted: seq<LabelScore>, over: seq<LabelScore>, top: seq<LabelScore>)
    requires multiset(sorted) == multiset(scored) && ScoresNonIncreasing(sorted)
    requires IsPrefix(over, sorted) && IsPrefix(top, sorted)
    ensures ScoresNonIncreasing(over) && ScoresNonIncreasing(top)
    ensures IsPrefix(over, top) || IsPrefix(top, over)
    ensures forall x, i :: x in scored && x !in top && 0 <= i < |top| ==> x.score <= top[i].score
  {
    PrefixNonIncreasing(sorted, |over|);
    PrefixNonIncreasing(sorted, |top|);
    if |over| <= |top| {
      assert over == top[..|over|];
    } else {
      assert top == over[..|top|];
    }
    forall x, i | x in scored && x !in top && 0 <= i < |top|
      ensures x.score <= top[i].score
    {
      assert x in multiset(sorted);
      var j :| 0 <= j < |sorted| && sorted[j] == x;
      PrefixMember(sorted, top, j);
      assert top[i] == sorted[i];
    }
  }

  lemma PrefixMember(s: seq<LabelScore>, p: seq<LabelScore>, j: nat)
    requires IsPrefix(p, s) && j < |s|
    ensures j < |p| ==> s[j] in p
  {
    if j < |p| {
      assert p[j] == s[j];
    }
  }

  lemma PrefixNonIncreasing(s: seq<LabelScore>, n: nat)
    requires ScoresNonIncreasing(s) && n <= |s|
    ensures ScoresNonIncreasing(s[..n])
  {
    assert forall i :: 0 <= i < n ==> s[..n][i] == s[i];
  }
}

=== FILE: counting.dfy ===
/** Counting labels the way `topEmotions` and `emotionDistribution` do: a
    JavaScript `Map` from label to count, whose iteration order is the order in
    which labels were first inserted. The map is an association list in
    first-seen order. */
module Counting {
  import Seqs

  /** One `{ label, count }` entry of a tally. */
  datatype LabelCount = LabelCount(name: string, count: int)

  /** The labels of a tally, in order. */
  function Names(t: seq<LabelCount>): (r: seq<string>)
    ensures |r| == |t|
    ensures forall i :: 0 <= i < |t| ==> r[i] == t[i].name
  {
    if |t| == 0 then [] else [t[0].name] + Names(t[1..])
  }

  /** The total of all counts of a tally. */
  function SumCounts(t: seq<LabelCount>): int
  {
    if |t| == 0 then 0 else t[0].count + SumCounts(t[1..])
  }

  /** The position of the first occurrence of `x` in `s`. */
  function FirstIndex(s: seq<string>, x: string): (i: nat)
    requires x in s
    ensures i < |s| && s[i] == x
    ensures forall j :: 0 <= j < i ==> s[j] != x
  {
    if s[0] == x then 0 else 1 + FirstIndex(s[1..], x)
  }

  /** No label has two entries (the keys of a `Map` are unique). */
  ghost predicate DistinctNames(t: seq<LabelCount>)
  {
    forall i, j :: 0 <= i < j < |t| ==> t[i].name != t[j].name
  }

  /** `r` is `t` with one more occurrence of `name` counted in place. */
  ghost predicate Bumped(r: seq<LabelCount>, t: seq<LabelCount>, name: string)
  {
    |r| == |t| && forall i :: 0 <= i < |t| ==>
      r[i].name == t[i].name && r[i].count == t[i].count + (if t[i].name == name then 1 else 0)
  }

  /** `map.set(name, (map.get(name) || 0) + 1)`: an existing entry keeps its place
      and gains one; a new label is appended with count 1. */
  function Bump(t: seq<LabelCount>, name: string): (r: seq<LabelCount>)
    requires DistinctNames(t)
    ensures name in Names(t) ==> Bumped(r, t, name)
    ensures name !in Names(t) ==> r == t + [LabelCount(name, 1)]
  {
    if |t| == 0 then [LabelCount(name, 1)]
    else if t[0].name == name then
      var r := [LabelCount(name, t[0].count + 1)] + t[1..];
      BumpFound(t, name, r);
      r
    else
      var rest := Bump(t[1..], name);
      BumpSkip(t, name, rest);
      [t[0]] + rest
  }

  lemma BumpFound(t: seq<LabelCount>, name: string, r: seq<LabelCount>)
    requires DistinctNames(t) && |t| > 0 && t[0].name == name
    requires r == [LabelCount(name, t[0].count + 1)] + t[1..]
    ensures Bumped(r, t, name)
  {
    forall i | 0 < i < |t|
      ensures r[i] == t[i] && t[i].name != name
    {
    }
  }

  lemma BumpSkip(t: seq<LabelCount>, name: string, rest: seq<LabelCount>)
    requires DistinctNames(t) && |t| > 0 && t[0].name != name
    requires name in Names(t[1..]) ==> Bumped(rest, t[1..], name)
    requires name !in Names(t[1..]) ==> rest == t[1..] + [LabelCount(name, 1)]
    ensures name in Names(t) ==> Bumped([t[0]] + rest, t, name)
    ensures name !in Names(t) ==> [t[0]] + rest == t + [LabelCount(name, 1)]
  {
    assert Names(t) == [t[0].name] + Names(t[1..]);
    assert name in Names(t) <==> name in Names(t[1..]);
    if name in Names(t[1..]) {
      BumpSkipFound(t, name, rest);
    } else {
      assert t == [t[0]] + t[1..];
    }
  }

  lemma BumpSkipFound(t: seq<LabelCount>, name: string, rest: seq<LabelCount>)
    requires |t| > 0 && t[0].name != name
    requires Bumped(rest, t[1..], name)
    ensures Bumped([t[0]] + rest, t, name)
  {
    var r := [t[0]] + rest;
    forall i | 0 < i < |t|
      ensures r[i] == rest[i - 1] && t[i] == t[1..][i - 1]
    {
    }
  }

  /** The tally after counting every label of `names` in order.
      Every entry counts exactly the occurrences of its label, every label
      of `names` has an entry, and entries follow first-occurrence order
      (so no label has two entries). */
  function Tally(names: seq<string>): (t: seq<LabelCount>)
    ensures CountsOf(t, names)
  {
    if |names| == 0 then []
    else
      var prev := Tally(names[..|names| - 1]);
      TallyStep(names, prev);
      Bump(prev, names[|names| - 1])
  }

  /** The labels with an entry in `t` are exactly the labels of `names`. */
  ghost predicate Covers(t: seq<LabelCount>, names: seq<string>)
  {
    forall n :: n in Names(t) <==> n in names
  }

  /** Every entry of `t` counts the occurrences of its label in `names`. */
  ghost predicate CountsExact(t: seq<LabelCount>, names: seq<string>)
  {
    forall i :: 0 <= i < |t| ==> t[i].name in names && t[i].count == multiset(names)[t[i].name]
  }

  /** The entries of `t` follow the order in which their labels first occur in `names`. */
  ghost predicate FirstSeenOrder(t: seq<LabelCount>, names: seq<string>)
  {
    forall i, j :: 0 <= i < j < |t| ==>
      t[i].name in names && t[j].name in names
      && FirstIndex(names, t[i].name) < FirstIndex(names, t[j].name)
  }

  /** The facts `Tally` promises, for tally `t` of the labels `names`. */
  ghost predicate CountsOf(t: seq<LabelCount>, names: seq<string>)
  {
    DistinctNames(t) && Covers(t, names) && CountsExact(t, names) && FirstSeenOrder(t, names)
  }

  /** The loop step of the counting pass keeps the facts `Tally` promises. */
  lemma TallyStep(names: seq<string>, prev: seq<LabelCount>)
    requires |names| > 0 && CountsOf(prev, names[..|names| - 1])
    ensures CountsOf(Bump(prev, names[|names| - 1]), names)
  {
    var init, last := names[..|names| - 1], names[|names| - 1];
    assert names == init + [last];
    if last in Names(prev) {
      TallyStepSeen(init, last, prev);
    } else {
      TallyStepNew(init, last, prev);
    }
  }

  lemma TallyStepSeen(init: seq<string>, last: string, prev: seq<LabelCount>)
    requires CountsOf(prev, init) && last in Names(prev)
    ensures CountsOf(Bump(prev, last), init + [last])
  {
    var t := Bump(prev, last);
    assert Bumped(t, prev, last);
    assert Names(t) == Names(prev);
    SeenCounts(init, last, prev, t);
    SeenOrder(init, last, prev, t);
  }

  lemma SeenCounts(init: seq<string>, last: string, prev: seq<LabelCount>, t: seq<LabelCount>)
    requires CountsExact(prev, init) && Bumped(t, prev, last)
    ensures CountsExact(t, init + [last])
  {
    var names := init + [last];
    assert multiset(names) == multiset(init) + multiset{last};
    forall i | 0 <= i < |t|
      ensures t[i].name in names && t[i].count == multiset(names)[t[i].name]
    {
      assert t[i].name == prev[i].name;
    }
  }

  lemma SeenOrder(init: seq<string>, last: string, prev: seq<LabelCount>, t: seq<LabelCount>)
    requires FirstSeenOrder(prev, init) && Bumped(t, prev, last)
    ensures FirstSeenOrder(t, init + [last])
  {
    var names := init + [last];
    FirstIndexExtend(init, last);
    assert Names(t) == Names(prev);
    forall i, j | 0 <= i < j < |t|
      ensures t[i].name in names && t[j].name in names
      ensures FirstIndex(names, t[i].name) < FirstIndex(names, t[j].name)
    {
      assert t[i].name == prev[i].name && t[j].name == prev[j].name;
      assert prev[i].name in init && prev[j].name in init;
      assert FirstIndex(init, prev[i].name) < FirstIndex(init, prev[j].name);
    }
  }

  lemma TallyStepNew(init: seq<string>, last: string, prev: seq<LabelCount>)
    requires CountsOf(prev, init) && last !in Names(prev)
    ensures CountsOf(Bump(prev, last), init + [last])
  {
    var t := Bump(prev, last);
    assert t == prev + [LabelCount(last, 1)];
    assert Names(t) == Names(prev) + [last];
    assert last !in init;
    NewDistinct(prev, last, t);
    NewCounts(init, last, prev, t);
    NewOrder(init, last, prev, t);
  }

  lemma NewDistinct(prev: seq<LabelCount>, last: string, t: seq<LabelCount>)
    requires DistinctNames(prev) && last !in Names(prev)
    requires t == prev + [LabelCount(last, 1)]
    ensures DistinctNames(t)
  {
    forall i, j | 0 <= i < j < |t|
      ensures t[i].name != t[j].name
    {
      assert t[i] == prev[i];
      assert prev[i].name == Names(prev)[i];
    }
  }

  lemma NewCounts(init: seq<string>, last: string, prev: seq<LabelCount>, t: seq<LabelCount>)
    requires CountsExact(prev, init) && last !in init
    requires t == prev + [LabelCount(last, 1)]
    ensures CountsExact(t, init + [last])
  {
    var names := init + [last];
    assert multiset(names) == multiset(init) + multiset{last};
    forall i | 0 <= i < |t|
      ensures t[i].name in names && t[i].count == multiset(names)[t[i].name]
    {
      if i < |prev| {
        assert t[i] == prev[i];
        assert prev[i].name != last;
      }
    }
  }

  lemma NewOrder(init: seq<string>, last: string, prev: seq<LabelCount>, t: seq<LabelCount>)
    requires CountsExact(prev, init) && FirstSeenOrder(prev, init) && last !in init
    requires t == prev + [LabelCount(last, 1)]
    ensures FirstSeenOrder(t, init + [last])
  {
    var names := init + [last];
    FirstIndexExtend(init, last);
    forall i, j | 0 <= i < j < |t|
      ensures t[i].name in names && t[j].name in names
      ensures FirstIndex(names, t[i].name) < FirstIndex(names, t[j].name)
    {
      assert t[i] == prev[i];
      assert prev[i].name in init;
      if j < |prev| {
        assert t[j] == prev[j];
        assert prev[j].name in init;
        assert FirstIndex(init, prev[i].name) < FirstIndex(init, prev[j].name);
      } else {
        assert t[j].name == last;
      }
    }
  }

  lemma FirstIndexExtend(s: seq<string>, y: string)
    ensures forall x :: x in s ==> x in s + [y] && FirstIndex(s + [y], x) == FirstIndex(s, x)
    ensures y !in s ==> FirstIndex(s + [y], y) == |s|
  {
    forall x | x in s
      ensures FirstIndex(s + [y], x) == FirstIndex(s, x)
    {
      var i := FirstIndex(s, x);
      var j := FirstIndex(s + [y], x);
      assert (s + [y])[i] == x;
    }
  }

  /** Counting never loses or invents an occurrence: the counts add up to the
      number of labels counted. */
  lemma {:induction false} TallyTotal(names: seq<string>)
    ensures SumCounts(Tally(names)) == |names|
    decreases |names|
  {
    if |names| > 0 {
      var init := names[..|names| - 1];
      TallyTotal(init);
      BumpTotal(Tally(init), names[|names| - 1]);
    }
  }

  lemma {:induction false} BumpTotal(t: seq<LabelCount>, name: string)
    requires DistinctNames(t)
    ensures SumCounts(Bump(t, name)) == SumCounts(t) + 1
    decreases |t|
  {
    if |t| > 0 && t[0].name != name {
      BumpTotal(t[1..], name);
    }
  }

  lemma SumCountsAppend(a: seq<LabelCount>, b: seq<LabelCount>)
    ensures SumCounts(a + b) == SumCounts(a) + SumCounts(b)
  {
    if |a| > 0 {
      assert (a + b)[1..] == a[1..] + b;
      SumCountsAppend(a[1..], b);
    } else {
      assert a + b == b;
    }
  }

  /** Reordering a tally does not change its total. */
  lemma {:induction false} SumCountsPermutation(a: seq<LabelCount>, b: seq<LabelCount>)
    requires multiset(a) == multiset(b)
    ensures SumCounts(a) == SumCounts(b)
    decreases |a|
  {
    if |a| == 0 {
      assert |b| == |multiset(b)| == 0;
    } else {
      var i := Seqs.PermutationHead(a, b);
      SumCountsPermutation(a[1..], b[..i] + b[i + 1..]);
      SumCountsAppend(b[..i], [a[0]] + b[i + 1..]);
      SumCountsAppend(b[..i], b[i + 1..]);
      assert ([a[0]] + b[i + 1..])[1..] == b[i + 1..];
    }
  }
}

=== FILE: dashboard.dfy ===
/** The "Dashboard" panel of the page (web/app/page.tsx): the headline numbers
    and the chart series, all recomputed from the history. */
module Dashboard {
  import opened Types
  import opened Seqs
  import opened Counting
  import opened Stats
  import opened Sorting
  import opened Trend

  /** `p.labelsOverThreshold.length > 0`: at least one label passed the threshold. */
  function HasDetection(p: Prediction): bool { |p.labelsOverThreshold| > 0 }

  /** `items.filter(hasDetection).length`: how many predictions detected at
      least one label. */
  function WithDetection(items: seq<Prediction>): (n: nat)
    ensures n <= |items|
  {
    if |items| == 0 then 0
    else (if HasDetection(items[0]) then 1 else 0) + WithDetection(items[1..])
  }

  /** Every prediction is counted exactly when every one detected something. */
  lemma {:induction false} WithDetectionFull(items: seq<Prediction>)
    ensures WithDetection(items) == |items| <==> forall i :: 0 <= i < |items| ==> HasDetection(items[i])
  {
    if |items| > 0 {
      var tail := items[1..];
      WithDetectionFull(tail);
      if HasDetection(items[0]) && WithDetection(tail) == |tail| {
        forall i | 0 <= i < |items|
          ensures HasDetection(items[i])
        {
          if i > 0 { assert items[i] == tail[i - 1]; }
        }
      } else if HasDetection(items[0]) {
        var i :| 0 <= i < |tail| && !HasDetection(tail[i]);
        assert items[i + 1] == tail[i];
      }
    }
  }

  /** No prediction is counted exactly when none detected anything. */
  lemma {:induction false} WithDetectionNone(items: seq<Prediction>)
    ensures WithDetection(items) == 0 <==> forall i :: 0 <= i < |items| ==> !HasDetection(items[i])
  {
    if |items| > 0 {
      var tail := items[1..];
      WithDetectionNone(tail);
      if !HasDetection(items[0]) && WithDetection(tail) == 0 {
        forall i | 0 <= i < |items|
          ensures !HasDetection(items[i])
        {
          if i > 0 { assert items[i] == tail[i - 1]; }
        }
      } else if !HasDetection(items[0]) {
        var i :| 0 <= i < |tail| && HasDetection(tail[i]);
        assert items[i + 1] == tail[i];
      }
    }
  }

  /** `part / whole * 100`. */
  function Percent(part: nat, whole: nat): (r: real)
    requires 0 < whole && part <= whole
    ensures r * (whole as real) == 100.0 * (part as real)
    ensures 0.0 <= r <= 100.0
    ensures r == 100.0 <==> part == whole
    ensures r == 0.0 <==> part == 0
  {
    var q := part as real / whole as real;
    assert q * (whole as real) == part as real;
    q * 100.0
  }

  /** `strongShare`: the percentage of predictions with at least one detected
      label, zero for an empty history. */
  function StrongShare(items: seq<Prediction>): (r: real)
    ensures |items| == 0 ==> r == 0.0
    ensures |items| > 0 ==> r * (|items| as real) == 100.0 * (WithDetection(items) as real)
    ensures 0.0 <= r <= 100.0
  {
    if |items| == 0 then 0.0
    else
      Percent(WithDetection(items), |items|)
  }

  /** The share is 100 exactly when every prediction detected something. */
  lemma StrongShareFull(items: seq<Prediction>)
    requires |items| > 0
    ensures StrongShare(items) == 100.0 <==> forall i :: 0 <= i < |items| ==> HasDetection(items[i])
  {
    WithDetectionFull(items);
  }

  /** The share is 0 exactly when no prediction detected anything (or there
      are none). */
  lemma StrongShareNone(items: seq<Prediction>)
    ensures StrongShare(items) == 0.0 <==> forall i :: 0 <= i < |items| ==> !HasDetection(items[i])
  {
    WithDetectionNone(items);
  }

  /** `p.labelsOverThreshold.length` for every prediction. */
  function DetectionCounts(items: seq<Prediction>): (r: seq<real>)
    ensures |r| == |items|
    ensures forall i :: 0 <= i < |items| ==> r[i] == |items[i].labelsOverThreshold| as real
  {
    if |items| == 0 then [] else [|items[0].labelsOverThreshold| as real] + DetectionCounts(items[1..])
  }

  /** The detection counts add up to the number of detected labels. */
  lemma {:induction false} SumDetectionCounts(items: seq<Prediction>)
    ensures Sum(DetectionCounts(items)) == |DetectedLabels(items)| as real
  {
    if |items| > 0 {
      SumDetectionCounts(items[1..]);
      assert DetectionCounts(items)[1..] == DetectionCounts(items[1..]);
    }
  }

  /** `total / n`: the share of `total` per item. */
  function Ratio(total: nat, n: nat): (r: real)
    requires n > 0
    ensures r * (n as real) == total as real
    ensures r >= 0.0
  {
    total as real / n as real
  }

  /** `avgDetected`: the mean number of detected labels per prediction, zero
      for an empty history; that is, all detected labels of the history
      shared out over its predictions. */
  function AvgDetected(items: seq<Prediction>): (r: real)
    ensures |items| == 0 ==> r == 0.0
    ensures |items| > 0 ==> r == Ratio(|DetectedLabels(items)|, |items|)
  {
    if |items| == 0 then 0.0
    else
      SumDetectionCounts(items);
      Mean(DetectionCounts(items))
  }

  /** The average lies between the fewest and the most labels any single
      prediction detected. */
  lemma AvgDetectedBetween(items: seq<Prediction>, lo: nat, hi: nat)
    requires |items| > 0
    requires forall i :: 0 <= i < |items| ==> lo <= |items[i].labelsOverThreshold| <= hi
    ensures lo as real <= AvgDetected(items) <= hi as real
  {
    MeanBounds(DetectionCounts(items), lo as real, hi as real);
  }

  /** How many labels the "top emotions" chart shows and how many entries of
      the distribution are charted. */
  const TopChartSize: int := 6
  const DistributionSize: int := 12
  /** The window of the trend chart. */
  const TrendWindow: int := 10

  /** Everything the dashboard derives from the history. */
  datatype View = View(
    topCounts: seq<LabelCount>,
    distribution: seq<LabelCount>,
    trendLabels: seq<string>,
    trend: seq<map<string, int>>,
    strongShare: real,
    avgDetected: real
  )

  /** The dashboard's derived values: the six most detected labels, the first
      twelve entries of the `top`-label distribution, a window-ten trend of the
      six charted labels, and the two headline numbers. */
  function Summarize(items: seq<Prediction>): (v: View)
    ensures v.topCounts == TopEmotions(items, TopChartSize)
    ensures v.distribution == SliceTo(EmotionDistribution(items), DistributionSize)
    ensures v.trendLabels == Names(v.topCounts)
    ensures v.trend == RollingTrend(items, v.trendLabels, TrendWindow)
    ensures v.strongShare == StrongShare(items) && v.avgDetected == AvgDetected(items)
    ensures |v.topCounts| <= TopChartSize && Ranked(v.topCounts, DetectedLabels(items))
    ensures |v.distribution| <= DistributionSize && Ranked(v.distribution, TopLabels(items))
    ensures |v.trend| == |items|
  {
    var topCounts := TopEmotions(items, TopChartSize);
    var all := EmotionDistribution(items);
    var distribution := SliceTo(all, DistributionSize);
    RankedPrefix(TopLabels(items), all, |distribution|);
    var labels := Names(topCounts);
    View(topCounts, distribution, labels, RollingTrend(items, labels, TrendWindow),
         StrongShare(items), AvgDetected(items))
  }

  /** Each trend point counts, for every charted label, its detections among
      the last ten predictions (in time order) up to that point. */
  lemma SummaryTrend(items: seq<Prediction>, k: nat, l: string)
    requires k < |items|
    requires l in Summarize(items).trendLabels
    ensures Summarize(items).trend[k][l]
            == multiset(DetectedLabels(Window(SortBy(items, Chronological), k, TrendWindow)))[l]
  {
  }

  /** Every label not charted in the "top emotions" chart ranks behind every
      charted one (detected no more often, and seen later on a tie), and it is
      only left out when six labels are already charted. */
  lemma SummaryTopOmits(items: seq<Prediction>, n: string)
    requires n in DetectedLabels(items) && n !in Summarize(items).trendLabels
    ensures |Summarize(items).topCounts| == TopChartSize
    ensures RanksBehind(n, Summarize(items).topCounts, DetectedLabels(items))
  {
  }

  /** Every `top` label missing from the distribution chart ranks behind every
      charted one, and it is only left out when twelve are already charted. */
  lemma SummaryDistributionOmits(items: seq<Prediction>, n: string)
    requires n in TopLabels(items) && n !in Names(Summarize(items).distribution)
    ensures |Summarize(items).distribution| == DistributionSize
    ensures RanksBehind(n, Summarize(items).distribution, TopLabels(items))
  {
    var all := EmotionDistribution(items);
    OmittedLabels(TopLabels(items), all, Summarize(items).distribution, DistributionSize);
  }
}

=== FILE: explore.dfy ===
/** The "Explore" panel of the page (web/app/page.tsx): searching the history
    by text and by detected emotion, ordering the hits, and the list of labels
    offered in the emotion picker. */
module Explore {
  import opened Types
  import opened Seqs
  import opened Sorting
  import opened Text

  // --------------------------------------------------------------- ordering

  /** The two orders of the result list. */
  datatype Order = Newest | Highest

  /** `Math.max(...ls.map((x) => x.score), 0)`. */
  function MaxOf(ls: seq<LabelScore>): (r: real)
    ensures r >= 0.0
    ensures forall i :: 0 <= i < |ls| ==> ls[i].score <= r
    ensures r == 0.0 || exists i :: 0 <= i < |ls| && ls[i].score == r
  {
    if |ls| == 0 then 0.0
    else
      var rest := MaxOf(ls[1..]);
      assert forall i :: 1 <= i < |ls| ==> ls[i] == ls[1..][i - 1];
      if ls[0].score > rest then ls[0].score else rest
  }

  /** The highest detected score of a prediction, or 0 when it detected nothing. */
  function MaxScore(p: Prediction): real { MaxOf(p.labelsOverThreshold) }

  /** The sort key of `(a, b) => b.createdAt - a.createdAt`: newest first. */
  function NewestFirst(p: Prediction): real { -(p.createdAt as real) }

  /** The sort key of `(a, b) => bMax - aMax`: highest top score first. */
  function HighestFirst(p: Prediction): real { -MaxScore(p) }

  function SortKey(order: Order): Prediction -> real
  {
    match order
    case Newest => NewestFirst
    case Highest => HighestFirst
  }

  // -------------------------------------------------------------- filtering

  /** `p.text.toLowerCase().includes(q)`. */
  function QueryMatch(q: string): Prediction -> bool
  {
    (p: Prediction) => Contains(ToLower(p.text), q)
  }

  /** `p.labelsOverThreshold.some((x) => x.label === e && x.score >= minScore)`. */
  function EmotionMatch(e: string, minScore: real): Prediction -> bool
  {
    (p: Prediction) => exists i | 0 <= i < |p.labelsOverThreshold| ::
                         p.labelsOverThreshold[i].name == e && p.labelsOverThreshold[i].score >= minScore
  }

  /** The two filters of `explored`, each applied only when its (trimmed)
      input is not empty; the query is matched case-insensitively. */
  function Selected(items: seq<Prediction>, query: string, emotion: string, minScore: real): seq<Prediction>
  {
    var rows := if Trim(query) != [] then Filter(items, QueryMatch(ToLower(Trim(query)))) else items;
    if Trim(emotion) != [] then Filter(rows, EmotionMatch(Trim(emotion), minScore)) else rows
  }

  /** A prediction is a hit when its lower-cased text contains the trimmed,
      lower-cased query (or the query is blank) and it detected the trimmed
      emotion with at least `minScore` (or the emotion is blank). */
  ghost predicate Matches(p: Prediction, query: string, emotion: string, minScore: real)
  {
    && (Trim(query) == [] || exists i :: OccursAt(ToLower(p.text), ToLower(Trim(query)), i))
    && (Trim(emotion) == [] ||
        exists x :: x in p.labelsOverThreshold && x.name == Trim(emotion) && x.score >= minScore)
  }

  /** The filters keep exactly the hits, each as often as it occurs in the history. */
  lemma SelectedMatches(items: seq<Prediction>, query: string, emotion: string, minScore: real)
    ensures forall p :: multiset(Selected(items, query, emotion, minScore))[p]
                        == if Matches(p, query, emotion, minScore) then multiset(items)[p] else 0
  {
    var q, e := ToLower(Trim(query)), Trim(emotion);
    var rows := if Trim(query) != [] then Filter(items, QueryMatch(q)) else items;
    forall p
      ensures multiset(Selected(items, query, emotion, minScore))[p]
              == if Matches(p, query, emotion, minScore) then multiset(items)[p] else 0
    {
      assert multiset(rows)[p] == if Trim(query) == [] || QueryMatch(q)(p) then multiset(items)[p] else 0;
      if Trim(emotion) != [] {
        EmotionMatchIff(p, e, minScore);
      }
    }
  }

  lemma EmotionMatchIff(p: Prediction, e: string, minScore: real)
    ensures EmotionMatch(e, minScore)(p) <==>
            exists x :: x in p.labelsOverThreshold && x.name == e && x.score >= minScore
  {
    var ls := p.labelsOverThreshold;
    if exists x :: x in ls && x.name == e && x.score >= minScore {
      var x :| x in ls && x.name == e && x.score >= minScore;
      var i :| 0 <= i < |ls| && ls[i] == x;
    }
  }

  /** The hits with a given key are the hits among the predictions with that key. */
  lemma SelectedWithKey(items: seq<Prediction>, query: string, emotion: string, minScore: real,
                        key: Prediction -> real)
    ensures forall k :: WithKey(Selected(items, query, emotion, minScore), key, k)
                        == Selected(WithKey(items, key, k), query, emotion, minScore)
  {
    forall k
      ensures WithKey(Selected(items, query, emotion, minScore), key, k)
              == Selected(WithKey(items, key, k), query, emotion, minScore)
    {
      var q, e := QueryMatch(ToLower(Trim(query))), EmotionMatch(Trim(emotion), minScore);
      var rows := if Trim(query) != [] then Filter(items, q) else items;
      if Trim(query) != [] {
        WithKeyFilter(items, key, k, q);
      }
      if Trim(emotion) != [] {
        WithKeyFilter(rows, key, k, e);
      }
    }
  }

  /** The filters keep the order of the history: hits of a concatenation are
      the hits of its parts, in turn. */
  lemma SelectedAppend(a: seq<Prediction>, b: seq<Prediction>, query: string, emotion: string, minScore: real)
    ensures Selected(a + b, query, emotion, minScore)
            == Selected(a, query, emotion, minScore) + Selected(b, query, emotion, minScore)
  {
    var q, e := QueryMatch(ToLower(Trim(query))), EmotionMatch(Trim(emotion), minScore);
    if Trim(query) != [] {
      FilterAppend(a, b, q);
    }
    var ra := if Trim(query) != [] then Filter(a, q) else a;
    var rb := if Trim(query) != [] then Filter(b, q) else b;
    if Trim(emotion) != [] {
      FilterAppend(ra, rb, e);
    }
  }

  /** A single prediction is kept exactly when it is a hit. */
  lemma SelectedSingle(p: Prediction, query: string, emotion: string, minScore: real)
    ensures Selected([p], query, emotion, minScore) == if Matches(p, query, emotion, minScore) then [p] else []
  {
    var q, e := QueryMatch(ToLower(Trim(query))), EmotionMatch(Trim(emotion), minScore);
    FilterUnfold([p], q);
    FilterUnfold([p], e);
    assert [p][1..] == [];
    EmotionMatchIff(p, Trim(emotion), minScore);
  }

  /** `explored`: the hits of the history, in the chosen order, hits with
      equal keys keeping their order in the history. */
  function Explored(items: seq<Prediction>, query: string, emotion: string, minScore: real, order: Order): (rows: seq<Prediction>)
    ensures forall p :: multiset(rows)[p] == if Matches(p, query, emotion, minScore) then multiset(items)[p] else 0
    ensures SortedBy(rows, SortKey(order))
    ensures forall k :: WithKey(rows, SortKey(order), k)
                        == Selected(WithKey(items, SortKey(order), k), query, emotion, minScore)
  {
    SelectedMatches(items, query, emotion, minScore);
    SelectedWithKey(items, query, emotion, minScore, SortKey(order));
    SortBy(Selected(items, query, emotion, minScore), SortKey(order))
  }

  /** A prediction is listed exactly when it is in the history and is a hit. */
  lemma ExploredMembers(items: seq<Prediction>, query: string, emotion: string, minScore: real, order: Order, p: Prediction)
    ensures p in Explored(items, query, emotion, minScore, order) <==> p in items && Matches(p, query, emotion, minScore)
  {
    var rows := Explored(items, query, emotion, minScore, order);
    assert p in rows <==> multiset(rows)[p] > 0;
    assert p in items <==> multiset(items)[p] > 0;
  }

  /** With a blank query and a blank emotion every prediction is listed. */
  lemma ExploredUnfiltered(items: seq<Prediction>, query: string, emotion: string, minScore: real, order: Order)
    requires Trim(query) == [] && Trim(emotion) == []
    ensures multiset(Explored(items, query, emotion, minScore, order)) == multiset(items)
  {
    var rows := Explored(items, query, emotion, minScore, order);
    assert forall p :: multiset(rows)[p] == multiset(items)[p];
  }

  /** In "newest" order the creation times never increase down the list. */
  lemma ExploredNewest(items: seq<Prediction>, query: string, emotion: string, minScore: real)
    ensures var rows := Explored(items, query, emotion, minScore, Newest);
            forall i, j :: 0 <= i < j < |rows| ==> rows[i].createdAt >= rows[j].createdAt
  {
    var rows := Explored(items, query, emotion, minScore, Newest);
    forall i, j | 0 <= i < j < |rows|
      ensures rows[i].createdAt >= rows[j].createdAt
    {
      assert NewestFirst(rows[i]) <= NewestFirst(rows[j]);
    }
  }

  /** In "highest" order the best detected scores never increase down the list. */
  lemma ExploredHighest(items: seq<Prediction>, query: string, emotion: string, minScore: real)
    ensures var rows := Explored(items, query, emotion, minScore, Highest);
            forall i, j :: 0 <= i < j < |rows| ==> MaxScore(rows[i]) >= MaxScore(rows[j])
  {
    var rows := Explored(items, query, emotion, minScore, Highest);
    forall i, j | 0 <= i < j < |rows|
      ensures MaxScore(rows[i]) >= MaxScore(rows[j])
    {
      assert HighestFirst(rows[i]) <= HighestFirst(rows[j]);
    }
  }

  // ---------------------------------------------------------- label picker

  /** Strictly increasing in string order, hence free of repeats. */
  ghost predicate StrictlySorted(s: seq<string>)
  {
    forall i, j :: 0 <= i < j < |s| ==> LexLess(s[i], s[j])
  }

  /** Adds `x` to a strictly sorted list of distinct labels, in its place. */
  function InsertLabel(x: string, s: seq<string>): (r: seq<string>)
    requires StrictlySorted(s)
    ensures StrictlySorted(r)
    ensures forall y :: y in r <==> y == x || y in s
  {
    if |s| == 0 then [x]
    else if x == s[0] then s
    else if LexLess(x, s[0]) then
      forall j | 0 <= j < |s|
        ensures LexLess(x, s[j])
      {
        if j > 0 { LexLessTransitive(x, s[0], s[j]); }
      }
      [x] + s
    else
      LexLessTotal(x, s[0]);
      var rest := InsertLabel(x, s[1..]);
      assert forall y :: y in s[1..] ==> LexLess(s[0], y);
      [s[0]] + rest
  }

  /** The distinct labels of `labels`, in string order. */
  function SortedDistinct(labels: seq<string>): (r: seq<string>)
    ensures StrictlySorted(r)
    ensures forall y :: y in r <==> y in labels
  {
    if |labels| == 0 then []
    else
      var init := labels[..|labels| - 1];
      assert labels == init + [labels[|labels| - 1]];
      InsertLabel(labels[|labels| - 1], SortedDistinct(init))
  }

  /** `uniqueLabels`: every label of every `top` list, once each, in string
      order (a `Set` spread and sorted with the default comparison). */
  function UniqueLabels(items: seq<Prediction>): (r: seq<string>)
    ensures StrictlySorted(r)
    ensures forall y :: y in r <==> y in TopLabels(items)
  {
    SortedDistinct(TopLabels(items))
  }

  /** No label is offered twice. */
  lemma UniqueLabelsDistinct(items: seq<Prediction>)
    ensures var r := UniqueLabels(items); forall i, j :: 0 <= i < j < |r| ==> r[i] != r[j]
  {
    var r := UniqueLabels(items);
    forall i, j | 0 <= i < j < |r|
      ensures r[i] != r[j]
    {
      LexLessIrreflexive(r[i]);
    }
  }

  /** A strictly sorted list is determined by its elements: the picker's list
      is the one and only ordered list of the distinct `top` labels. */
  lemma {:induction false} StrictlySortedUnique(a: seq<string>, b: seq<string>)
    requires StrictlySorted(a) && StrictlySorted(b)
    requires forall y :: y in a <==> y in b
    ensures a == b
    decreases |a|
  {
    EmptyTogether(a, b);
    if |a| > 0 {
      SameHead(a, b);
      var a', b' := a[1..], b[1..];
      forall y
        ensures y in a' <==> y in b'
      {
        SameTail(a, b, y);
      }
      StrictlySortedUnique(a', b');
      assert a == [a[0]] + a' && b == [b[0]] + b';
    }
  }

  lemma EmptyTogether(a: seq<string>, b: seq<string>)
    requires forall y :: y in a <==> y in b
    ensures |a| == 0 <==> |b| == 0
  {
    if |a| > 0 {
      assert a[0] in b;
    }
    if |b| > 0 {
      assert b[0] in a;
    }
  }

  /** Two strictly sorted lists with the same elements start alike: each head
      is the least element. */
  lemma SameHead(a: seq<string>, b: seq<string>)
    requires StrictlySorted(a) && StrictlySorted(b) && |a| > 0 && |b| > 0
    requires forall y :: y in a <==> y in b
    ensures a[0] == b[0]
  {
    assert a[0] in b && b[0] in a;
    var i :| 0 <= i < |a| && a[i] == b[0];
    var j :| 0 <= j < |b| && b[j] == a[0];
    if a[0] != b[0] {
      assert i > 0 && j > 0;
      LexLessTransitive(a[0], b[0], a[0]);
      LexLessIrreflexive(a[0]);
    }
  }

  /** Dropping the common least element leaves the same elements. */
  lemma SameTail(a: seq<string>, b: seq<string>, y: string)
    requires StrictlySorted(a) && StrictlySorted(b) && |a| > 0 && |b| > 0 && a[0] == b[0]
    requires forall y :: y in a <==> y in b
    ensures y in a[1..] <==> y in b[1..]
  {
    if y in a[1..] {
      var i :| 0 <= i < |a[1..]| && a[1..][i] == y;
      assert LexLess(a[0], a[i + 1]);
      LexLessIrreflexive(y);
      assert y != b[0];
      assert y in b;
    }
    if y in b[1..] {
      var j :| 0 <= j < |b[1..]| && b[1..][j] == y;
      assert LexLess(b[0], b[j + 1]);
      LexLessIrreflexive(y);
      assert y != a[0];
      assert y in a;
    }
  }
}

=== FILE: seqs.dfy ===
/** Generic sequence helpers: the JavaScript array operations the dashboard uses
    (`filter`, `reverse`, `slice`, `reduce` for sums) stated over Dafny sequences. */
module Seqs {

  /** `b` with its element at `i` removed has the same multiset as `b` minus that element. */
  lemma RemoveAt<T>(b: seq<T>, i: nat)
    requires i < |b|
    ensures b == b[..i] + ([b[i]] + b[i + 1..])
    ensures multiset(b) == multiset{b[i]} + multiset(b[..i] + b[i + 1..])
  {
    assert b == b[..i] + ([b[i]] + b[i + 1..]);
    calc {
      multiset(b);
      multiset(b[..i]) + multiset([b[i]] + b[i + 1..]);
      multiset(b[..i]) + multiset{b[i]} + multiset(b[i + 1..]);
      multiset{b[i]} + multiset(b[..i] + b[i + 1..]);
    }
  }

  /** Adding the same element to two multisets leaves them equal only if they were. */
  lemma MultisetCancel<T>(x: T, m: multiset<T>, n: multiset<T>)
    requires multiset{x} + m == multiset{x} + n
    ensures m == n
  {
    forall y
      ensures m[y] == n[y]
    {
      assert (multiset{x} + m)[y] == (multiset{x} + n)[y];
    }
  }

  /** Splits a permutation `a ~ b` into its head and a permutation of the rest:
      `b` minus the position of `a[0]` is a permutation of `a[1..]`. */
  lemma PermutationHead<T>(a: seq<T>, b: seq<T>) returns (i: nat)
    requires |a| > 0 && multiset(a) == multiset(b)
    ensures i < |b| && b[i] == a[0]
    ensures b == b[..i] + ([a[0]] + b[i + 1..])
    ensures multiset(a[1..]) == multiset(b[..i] + b[i + 1..])
  {
    assert a[0] in multiset(b);
    i :| 0 <= i < |b| && b[i] == a[0];
    RemoveAt(b, i);
    assert a == [a[0]] + a[1..];
    assert multiset(a) == multiset{a[0]} + multiset(a[1..]);
    MultisetCancel(a[0], multiset(a[1..]), multiset(b[..i] + b[i + 1..]));
  }

  /** `Array.prototype.filter`: the elements satisfying `f`, in order. */
  function Filter<T(!new)>(s: seq<T>, f: T -> bool): (r: seq<T>)
    ensures |r| <= |s|
    ensures forall i :: 0 <= i < |r| ==> f(r[i])
    ensures forall x :: multiset(r)[x] == if f(x) then multiset(s)[x] else 0
  {
    if |s| == 0 then []
    else
      assert s == [s[0]] + s[1..];
      (if f(s[0]) then [s[0]] else []) + Filter(s[1..], f)
  }

  /** Filtering two arrangements of the same elements keeps the same elements. */
  lemma FilterPermutation<T(!new)>(a: seq<T>, b: seq<T>, f: T -> bool)
    requires multiset(a) == multiset(b)
    ensures multiset(Filter(a, f)) == multiset(Filter(b, f))
  {
    forall x
      ensures multiset(Filter(a, f))[x] == multiset(Filter(b, f))[x]
    {
    }
  }

  /** Nothing passes the filter exactly when no element satisfies `f`. */
  lemma FilterEmptyIff<T(!new)>(s: seq<T>, f: T -> bool)
    ensures |Filter(s, f)| == 0 <==> forall i :: 0 <= i < |s| ==> !f(s[i])
  {
    var r := Filter(s, f);
    if |r| > 0 {
      assert r[0] in multiset(r);
      assert r[0] in multiset(s);
      var i :| 0 <= i < |s| && s[i] == r[0];
      assert f(s[i]);
    }
    forall i | 0 <= i < |s| && f(s[i])
      ensures |r| > 0
    {
      assert s[i] in multiset(s);
      assert multiset(r)[s[i]] > 0;
    }
  }

  /** A filter every element passes keeps the whole sequence, in order. */
  lemma {:induction false} FilterKeepsAll<T(!new)>(s: seq<T>, f: T -> bool)
    requires forall i :: 0 <= i < |s| ==> f(s[i])
    ensures Filter(s, f) == s
  {
    if |s| > 0 {
      var t := s[1..];
      forall i | 0 <= i < |t|
        ensures f(t[i])
      {
        assert t[i] == s[i + 1];
      }
      FilterKeepsAll(t, f);
      assert f(s[0]);
      assert Filter(s, f) == [s[0]] + Filter(t, f);
      assert s == [s[0]] + t;
    }
  }

  /** One step of the filter: the head is kept exactly when it passes. */
  lemma FilterUnfold<T(!new)>(s: seq<T>, f: T -> bool)
    requires |s| > 0
    ensures Filter(s, f) == (if f(s[0]) then [s[0]] else []) + Filter(s[1..], f)
  {
  }

  /** The head and tail of a concatenation whose first part is not empty. */
  lemma ConsAppend<T>(a: seq<T>, b: seq<T>)
    requires |a| > 0
    ensures (a + b)[0] == a[0] && (a + b)[1..] == a[1..] + b
  {
  }

  lemma AppendAssoc<T>(h: seq<T>, x: seq<T>, y: seq<T>)
    ensures h + (x + y) == (h + x) + y
  {
  }

  /** Filtering keeps order: a concatenation is filtered part by part. */
  lemma {:induction false} FilterAppend<T(!new)>(a: seq<T>, b: seq<T>, f: T -> bool)
    ensures Filter(a + b, f) == Filter(a, f) + Filter(b, f)
    decreases |a|
  {
    if |a| == 0 {
      assert a + b == b;
    } else {
      ConsAppend(a, b);
      FilterUnfold(a + b, f);
      FilterUnfold(a, f);
      FilterAppend(a[1..], b, f);
      AppendAssoc(if f(a[0]) then [a[0]] else [], Filter(a[1..], f), Filter(b, f));
    }
  }

  /** Two arrangements of the same elements have equally many that pass. */
  lemma FilterPermutationLength<T(!new)>(a: seq<T>, b: seq<T>, f: T -> bool)
    requires multiset(a) == multiset(b)
    ensures |Filter(a, f)| == |Filter(b, f)|
  {
    FilterPermutation(a, b, f);
    assert |multiset(Filter(a, f))| == |Filter(a, f)|;
    assert |multiset(Filter(b, f))| == |Filter(b, f)|;
  }

  /** `Array.prototype.reverse`, without the in-place mutation. */
  function Reverse<T>(s: seq<T>): (r: seq<T>)
    ensures |r| == |s|
    ensures forall i :: 0 <= i < |s| ==> r[i] == s[|s| - 1 - i]
    ensures multiset(r) == multiset(s)
  {
    if |s| == 0 then []
    else
      assert s == [s[0]] + s[1..];
      Reverse(s[1..]) + [s[0]]
  }

  /** One step of the reversal: the head goes to the back. */
  lemma ReverseUnfold<T>(s: seq<T>)
    requires |s| > 0
    ensures Reverse(s) == Reverse(s[1..]) + [s[0]]
  {
  }

  /** The position `Array.prototype.slice(0, end)` stops at: a negative `end`
      counts from the back, and the result is clamped to `[0, |s|]`. */
  function SliceEnd(n: nat, end: int): (e: nat)
    ensures e <= n
    ensures 0 <= end <= n ==> e == end
    ensures end > n ==> e == n
    ensures end < 0 ==> e == if n + end < 0 then 0 else n + end
  {
    if end < 0 then (if n + end < 0 then 0 else n + end)
    else if end > n then n
    else end
  }

  /** `s.slice(0, end)`: always a prefix of `s`. */
  function SliceTo<T>(s: seq<T>, end: int): (r: seq<T>)
    ensures r == s[..SliceEnd(|s|, end)]
  {
    s[..SliceEnd(|s|, end)]
  }
}

=== FILE: sorting.dfy ===
/** Stable sorting by a real-valued key.

    Every sort of the dashboard and of the prediction server is stable: Python's
    `sorted` always is, and so is `Array.prototype.sort` since ECMAScript 2019.
    A descending sort (`reverse=True`, or a comparator `b - a`) is the ascending
    sort on the negated key, equal keys still keeping their input order. */
module Sorting {
  import opened Seqs

  /** `s` is in non-decreasing order of `key`. */
  ghost predicate SortedBy<T>(s: seq<T>, key: T -> real)
  {
    forall i, j :: 0 <= i < j < |s| ==> key(s[i]) <= key(s[j])
  }

  /** The elements of `s` whose key is `k`, in their order in `s`. */
  function WithKey<T>(s: seq<T>, key: T -> real, k: real): (r: seq<T>)
    ensures |r| <= |s|
  {
    if |s| == 0 then []
    else (if key(s[0]) == k then [s[0]] else []) + WithKey(s[1..], key, k)
  }

  /** `r` keeps, for every key, the elements of `s` with that key in the same
      relative order: equal keys never swap. */
  ghost predicate Stable<T>(r: seq<T>, s: seq<T>, key: T -> real)
  {
    forall k :: WithKey(r, key, k) == WithKey(s, key, k)
  }

  lemma WithKeyCons<T>(a: T, t: seq<T>, key: T -> real, k: real)
    ensures WithKey([a] + t, key, k) == (if key(a) == k then [a] else []) + WithKey(t, key, k)
  {
    assert ([a] + t)[1..] == t;
  }

  /** A sequence starts its own key class: the class of its first key is not empty. */
  lemma WithKeyHead<T>(s: seq<T>, key: T -> real)
    ensures |s| > 0 ==> WithKey(s, key, key(s[0])) == [s[0]] + WithKey(s[1..], key, key(s[0]))
  {
  }

  /** Every element of a permutation of `{x} + s[1..]` has a key at least `key(s[0])`. */
  lemma InsertTailBound<T>(x: T, s: seq<T>, rest: seq<T>, key: T -> real)
    requires SortedBy(s, key) && |s| > 0 && key(s[0]) < key(x)
    requires multiset(rest) == multiset{x} + multiset(s[1..])
    ensures forall j :: 0 <= j < |rest| ==> key(s[0]) <= key(rest[j])
  {
    forall j | 0 <= j < |rest|
      ensures key(s[0]) <= key(rest[j])
    {
      assert rest[j] in multiset(rest);
      if rest[j] != x {
        assert rest[j] in multiset(s[1..]);
      }
    }
  }

  /** The recursive step of `Insert`: putting `s[0]` in front of the insertion
      of `x` into `s[1..]` keeps the three properties of `Insert`. */
  lemma InsertStep<T>(x: T, s: seq<T>, rest: seq<T>, key: T -> real)
    requires SortedBy(s, key) && |s| > 0 && key(s[0]) < key(x)
    requires SortedBy(rest, key)
    requires multiset(rest) == multiset{x} + multiset(s[1..])
    requires Stable(rest, [x] + s[1..], key)
    ensures SortedBy([s[0]] + rest, key)
    ensures multiset([s[0]] + rest) == multiset{x} + multiset(s)
    ensures Stable([s[0]] + rest, [x] + s, key)
  {
    assert s == [s[0]] + s[1..];
    InsertTailBound(x, s, rest, key);
    forall k
      ensures WithKey([s[0]] + rest, key, k) == WithKey([x] + s, key, k)
    {
      WithKeyCons(s[0], rest, key, k);
      WithKeyCons(x, s[1..], key, k);
      WithKeyCons(x, s, key, k);
      WithKeyCons(s[0], s[1..], key, k);
    }
    calc {
      multiset([s[0]] + rest);
      multiset{s[0]} + multiset(rest);
      multiset{s[0]} + multiset{x} + multiset(s[1..]);
      multiset{x} + multiset(s);
    }
  }

  /** Inserts `x` into the sorted `s` in front of every element whose key is not smaller. */
  function Insert<T>(x: T, s: seq<T>, key: T -> real): (r: seq<T>)
    requires SortedBy(s, key)
    ensures SortedBy(r, key)
    ensures multiset(r) == multiset{x} + multiset(s)
    ensures Stable(r, [x] + s, key)
  {
    if |s| == 0 || key(x) <= key(s[0]) then [x] + s
    else
      var rest := Insert(x, s[1..], key);
      InsertStep(x, s, rest, key);
      [s[0]] + rest
  }

  /** Stable insertion sort in non-decreasing key order. */
  function SortBy<T>(s: seq<T>, key: T -> real): (r: seq<T>)
    ensures SortedBy(r, key)
    ensures multiset(r) == multiset(s)
    ensures |r| == |s|
    ensures Stable(r, s, key)
  {
    if |s| == 0 then []
    else
      var rest := SortBy(s[1..], key);
      assert s == [s[0]] + s[1..];
      var r := Insert(s[0], rest, key);
      assert forall k :: WithKey(r, key, k) == WithKey(s, key, k) by {
        forall k
          ensures WithKey(r, key, k) == WithKey(s, key, k)
        {
          WithKeyCons(s[0], rest, key, k);
        }
      }
      assert |r| == |multiset(r)| == |s|;
      r
  }

  /** In a sorted sequence no element has a key below the first one. */
  lemma {:induction false} WithKeyBelowFirst<T>(s: seq<T>, key: T -> real, k: real)
    requires SortedBy(s, key) && |s| > 0 && k < key(s[0])
    ensures WithKey(s, key, k) == []
    decreases |s|
  {
    if |s| > 1 {
      WithKeyBelowFirst(s[1..], key, k);
    }
  }

  /** Two sorted sequences that agree on the elements of every key, in order,
      are equal. */
  lemma {:induction false} SortedStableUnique<T>(t: seq<T>, u: seq<T>, key: T -> real)
    requires SortedBy(t, key) && SortedBy(u, key)
    requires Stable(t, u, key)
    ensures t == u
    decreases |t| + |u|
  {
    if |t| == 0 {
      if |u| > 0 {
        WithKeyHead(u, key);
        assert false;
      }
    } else if |u| == 0 {
      WithKeyHead(t, key);
      assert false;
    } else {
      var a, b := t[0], u[0];
      if key(a) < key(b) {
        WithKeyBelowFirst(u, key, key(a));
        WithKeyHead(t, key);
        assert false;
      } else if key(b) < key(a) {
        WithKeyBelowFirst(t, key, key(b));
        WithKeyHead(u, key);
        assert false;
      }
      var k0 := key(a);
      assert WithKey(t, key, k0) == [a] + WithKey(t[1..], key, k0);
      assert WithKey(u, key, k0) == [b] + WithKey(u[1..], key, k0);
      assert a == WithKey(t, key, k0)[0] == WithKey(u, key, k0)[0] == b;
      forall k
        ensures WithKey(t[1..], key, k) == WithKey(u[1..], key, k)
      {
        if k == k0 {
          assert WithKey(t, key, k0)[1..] == WithKey(t[1..], key, k0);
          assert WithKey(u, key, k0)[1..] == WithKey(u[1..], key, k0);
        } else {
          assert WithKey(t, key, k) == WithKey(t[1..], key, k);
          assert WithKey(u, key, k) == WithKey(u[1..], key, k);
        }
      }
      SortedStableUnique(t[1..], u[1..], key);
      assert t == [a] + t[1..];
      assert u == [b] + u[1..];
    }
  }

  /** `SortBy` is the only arrangement of `s` that is sorted and stable: any
      sequence with both properties is exactly its result. */
  lemma SortByCharacterized<T>(s: seq<T>, t: seq<T>, key: T -> real)
    requires SortedBy(t, key)
    requires Stable(t, s, key)
    ensures t == SortBy(s, key)
  {
    var r := SortBy(s, key);
    SortedStableUnique(t, r, key);
  }

  /** Sorting what is already sorted changes nothing. */
  lemma SortedIsFixed<T>(s: seq<T>, key: T -> real)
    requires SortedBy(s, key)
    ensures SortBy(s, key) == s
  {
    SortByCharacterized(s, s, key);
  }

  /** The class of `k` holds only elements of `s` with key `k`. */
  lemma {:induction false} WithKeyElements<T>(s: seq<T>, key: T -> real, k: real)
    ensures forall i :: 0 <= i < |WithKey(s, key, k)| ==> WithKey(s, key, k)[i] in s && key(WithKey(s, key, k)[i]) == k
    decreases |s|
  {
    if |s| > 0 {
      WithKeyElements(s[1..], key, k);
      WithKeyCons(s[0], s[1..], key, k);
      assert s == [s[0]] + s[1..];
    }
  }

  /** Every element of `s` with key `k` shows up in the class of `k`. */
  lemma {:induction false} WithKeyMember<T>(s: seq<T>, key: T -> real, j: nat)
    requires j < |s|
    ensures s[j] in WithKey(s, key, key(s[j]))
    decreases |s|
  {
    if j > 0 {
      WithKeyMember(s[1..], key, j - 1);
      WithKeyCons(s[0], s[1..], key, key(s[j]));
      assert s == [s[0]] + s[1..];
    }
  }

  /** Two elements of `s` with the same key appear in the class of that key in
      the order they have in `s`. */
  lemma {:induction false} WithKeyOrder<T>(s: seq<T>, key: T -> real, i: nat, j: nat)
    requires i < j < |s| && key(s[i]) == key(s[j])
    ensures exists p, q :: 0 <= p < q < |WithKey(s, key, key(s[i]))|
                           && WithKey(s, key, key(s[i]))[p] == s[i]
                           && WithKey(s, key, key(s[i]))[q] == s[j]
    decreases |s|
  {
    var k := key(s[i]);
    var w := WithKey(s, key, k);
    var w' := WithKey(s[1..], key, k);
    WithKeyCons(s[0], s[1..], key, k);
    assert s == [s[0]] + s[1..];
    if i == 0 {
      WithKeyMember(s[1..], key, j - 1);
      var q' :| 0 <= q' < |w'| && w'[q'] == s[j];
      assert w == [s[0]] + w';
      assert w[0] == s[i] && w[q' + 1] == s[j];
    } else {
      WithKeyOrder(s[1..], key, i - 1, j - 1);
      var p', q' :| 0 <= p' < q' < |w'| && w'[p'] == s[i] && w'[q'] == s[j];
      var h := |w| - |w'|;
      assert w[p' + h] == s[i] && w[q' + h] == s[j];
    }
  }

  /** Two positions of the class of `k` come from positions of `s` in the same order. */
  lemma {:induction false} WithKeySource<T>(s: seq<T>, key: T -> real, k: real, p: nat, q: nat)
    requires p < q < |WithKey(s, key, k)|
    ensures exists a, b :: 0 <= a < b < |s| && s[a] == WithKey(s, key, k)[p] && s[b] == WithKey(s, key, k)[q]
    decreases |s|
  {
    var w := WithKey(s, key, k);
    var w' := WithKey(s[1..], key, k);
    WithKeyCons(s[0], s[1..], key, k);
    assert s == [s[0]] + s[1..];
    if key(s[0]) == k {
      assert w == [s[0]] + w';
      if p == 0 {
        WithKeyElements(s[1..], key, k);
        assert w[q] == w'[q - 1] && w'[q - 1] in s[1..];
        var b' :| 0 <= b' < |s[1..]| && s[1..][b'] == w'[q - 1];
        assert s[0] == w[p] && s[b' + 1] == w[q];
      } else {
        WithKeySource(s[1..], key, k, p - 1, q - 1);
        var a', b' :| 0 <= a' < b' < |s[1..]| && s[1..][a'] == w'[p - 1] && s[1..][b'] == w'[q - 1];
        assert s[a' + 1] == w[p] && s[b' + 1] == w[q];
      }
    } else {
      assert w == w';
      WithKeySource(s[1..], key, k, p, q);
      var a', b' :| 0 <= a' < b' < |s[1..]| && s[1..][a'] == w'[p] && s[1..][b'] == w'[q];
      assert s[a' + 1] == w[p] && s[b' + 1] == w[q];
    }
  }

  /** A stable rearrangement keeps every two elements with equal keys in their
      original relative order. */
  lemma StableKeepsOrder<T>(r: seq<T>, s: seq<T>, key: T -> real, i: nat, j: nat)
    requires Stable(r, s, key)
    requires i < j < |r| && key(r[i]) == key(r[j])
    ensures exists a, b :: 0 <= a < b < |s| && s[a] == r[i] && s[b] == r[j]
  {
    var k := key(r[i]);
    WithKeyOrder(r, key, i, j);
    var p, q :| 0 <= p < q < |WithKey(r, key, k)| && WithKey(r, key, k)[p] == r[i] && WithKey(r, key, k)[q] == r[j];
    assert WithKey(r, key, k) == WithKey(s, key, k);
    WithKeySource(s, key, k, p, q);
  }

  /** Taking one key class and filtering commute. */
  lemma {:induction false} WithKeyFilter<T(!new)>(s: seq<T>, key: T -> real, k: real, f: T -> bool)
    ensures WithKey(Filter(s, f), key, k) == Filter(WithKey(s, key, k), f)
    decreases |s|
  {
    if |s| > 0 {
      WithKeyFilter(s[1..], key, k, f);
      FilterThenKey(s, key, k, f);
      KeyThenFilter(s, key, k, f);
      OneBoth(s[0], key, k, f);
    }
  }

  /** The key class of a filtered sequence, split at its head. */
  lemma FilterThenKey<T(!new)>(s: seq<T>, key: T -> real, k: real, f: T -> bool)
    requires |s| > 0
    ensures WithKey(Filter(s, f), key, k)
            == WithKey(if f(s[0]) then [s[0]] else [], key, k) + WithKey(Filter(s[1..], f), key, k)
  {
    FilterUnfold(s, f);
    WithKeyAppend(if f(s[0]) then [s[0]] else [], Filter(s[1..], f), key, k);
  }

  /** The filtered key class of a sequence, split at its head. */
  lemma KeyThenFilter<T(!new)>(s: seq<T>, key: T -> real, k: real, f: T -> bool)
    requires |s| > 0
    ensures Filter(WithKey(s, key, k), f)
            == Filter(if key(s[0]) == k then [s[0]] else [], f) + Filter(WithKey(s[1..], key, k), f)
  {
    assert s == [s[0]] + s[1..];
    WithKeyCons(s[0], s[1..], key, k);
    FilterAppend(if key(s[0]) == k then [s[0]] else [], WithKey(s[1..], key, k), f);
  }

  /** A one-element sequence is in a key class and passes a filter independently. */
  lemma OneBoth<T(!new)>(x: T, key: T -> real, k: real, f: T -> bool)
    ensures WithKey(if f(x) then [x] else [], key, k) == Filter(if key(x) == k then [x] else [], f)
  {
    FilterUnfold([x], f);
    assert [x][1..] == [];
  }

  /** Taking a key class keeps order: a concatenation is taken part by part. */
  lemma {:induction false} WithKeyAppend<T>(a: seq<T>, b: seq<T>, key: T -> real, k: real)
    ensures WithKey(a + b, key, k) == WithKey(a, key, k) + WithKey(b, key, k)
    decreases |a|
  {
    if |a| == 0 {
      assert a + b == b;
    } else {
      ConsAppend(a, b);
      WithKeyAppend(a[1..], b, key, k);
      AppendAssoc(if key(a[0]) == k then [a[0]] else [], WithKey(a[1..], key, k), WithKey(b, key, k));
    }
  }
}

=== FILE: stats.dfy ===
/** The aggregation functions of the dashboard (web/lib/stats.ts): pure functions
    over a snapshot of the prediction history. Numbers are exact reals. */
module Stats {
  import opened Types
  import opened Seqs
  import opened Sorting
  import opened Counting

  // ---------------------------------------------------------------- mean

  /** `nums.reduce((a, b) => a + b, 0)`. */
  function Sum(nums: seq<real>): real
  {
    if |nums| == 0 then 0.0 else nums[0] + Sum(nums[1..])
  }

  /** `mean`: zero for no numbers, otherwise the number that, taken `|nums|`
      times, adds up to the sum. */
  function Mean(nums: seq<real>): (r: real)
    ensures |nums| == 0 ==> r == 0.0
    ensures |nums| > 0 ==> r * (|nums| as real) == Sum(nums)
  {
    if |nums| == 0 then 0.0 else Sum(nums) / (|nums| as real)
  }

  lemma {:induction false} SumBounds(nums: seq<real>, lo: real, hi: real)
    requires forall i :: 0 <= i < |nums| ==> lo <= nums[i] <= hi
    ensures (|nums| as real) * lo <= Sum(nums) <= (|nums| as real) * hi
    decreases |nums|
  {
    if |nums| > 0 {
      SumBounds(nums[1..], lo, hi);
    }
  }

  /** The mean lies between any lower and upper bound of the numbers. */
  lemma MeanBounds(nums: seq<real>, lo: real, hi: real)
    requires |nums| > 0
    requires forall i :: 0 <= i < |nums| ==> lo <= nums[i] <= hi
    ensures lo <= Mean(nums) <= hi
  {
    SumBounds(nums, lo, hi);
    var n := |nums| as real;
    var m := Mean(nums);
    assert m * n == Sum(nums);
    assert (m - lo) * n >= 0.0;
    assert (hi - m) * n >= 0.0;
  }

  // ---------------------------------------------------------- percentile

  lemma MulLe(a: real, b: real, c: real)
    requires a <= b && 0.0 <= c
    ensures a * c <= b * c
  {
  }

  /** The sort key of `(a, b) => a - b`. */
  function Ascending(x: real): real { x }

  /** `Math.min(n - 1, Math.max(0, Math.floor((p / 100) * n)))`. */
  function RankIndex(p: real, n: nat): (idx: nat)
    requires n > 0
    ensures idx < n
    ensures p <= 0.0 ==> idx == 0
    ensures p >= 100.0 ==> idx == n - 1
    ensures 0.0 <= p / 100.0 * (n as real) < n as real ==>
              idx as real <= p / 100.0 * (n as real) < idx as real + 1.0
  {
    var x := p / 100.0 * (n as real);
    assert p <= 0.0 ==> x <= 0.0 by {
      if p <= 0.0 {
        MulLe(p / 100.0, 0.0, n as real);
      }
    }
    assert p >= 100.0 ==> x >= n as real by {
      if p >= 100.0 {
        MulLe(1.0, p / 100.0, n as real);
      }
    }
    var f := x.Floor;
    if f < 0 then 0 else if f > n - 1 then n - 1 else f
  }

  /** The tests "less than `v`" and "at most `v`". */
  function Below(v: real): real -> bool { x => x < v }
  function AtMost(v: real): real -> bool { x => x <= v }

  /** How many of `nums` are less than `v`. */
  function CountBelow(nums: seq<real>, v: real): (n: nat)
    ensures n <= |nums|
  {
    if |nums| == 0 then 0 else (if nums[0] < v then 1 else 0) + CountBelow(nums[1..], v)
  }

  /** How many of `nums` are at most `v`. */
  function CountAtMost(nums: seq<real>, v: real): (n: nat)
    ensures n <= |nums|
  {
    if |nums| == 0 then 0 else (if nums[0] <= v then 1 else 0) + CountAtMost(nums[1..], v)
  }

  lemma {:induction false} CountsAreFilters(nums: seq<real>, v: real)
    ensures CountBelow(nums, v) == |Filter(nums, Below(v))|
    ensures CountAtMost(nums, v) == |Filter(nums, AtMost(v))|
    decreases |nums|
  {
    if |nums| > 0 {
      CountsAreFilters(nums[1..], v);
      FilterUnfold(nums, Below(v));
      FilterUnfold(nums, AtMost(v));
    }
  }

  /** Rearranging the numbers changes neither count. */
  lemma CountsPermutation(a: seq<real>, b: seq<real>, v: real)
    requires multiset(a) == multiset(b)
    ensures CountBelow(a, v) == CountBelow(b, v)
    ensures CountAtMost(a, v) == CountAtMost(b, v)
  {
    CountsAreFilters(a, v);
    CountsAreFilters(b, v);
    FilterPermutationLength(a, b, Below(v));
    FilterPermutationLength(a, b, AtMost(v));
  }

  lemma {:induction false} CountsAppend(a: seq<real>, b: seq<real>, v: real)
    ensures CountBelow(a + b, v) == CountBelow(a, v) + CountBelow(b, v)
    ensures CountAtMost(a + b, v) == CountAtMost(a, v) + CountAtMost(b, v)
    decreases |a|
  {
    if |a| == 0 {
      assert a + b == b;
    } else {
      ConsAppend(a, b);
      CountsAppend(a[1..], b, v);
    }
  }

  lemma {:induction false} NoneBelow(s: seq<real>, v: real)
    requires forall i :: 0 <= i < |s| ==> v <= s[i]
    ensures CountBelow(s, v) == 0
    decreases |s|
  {
    if |s| > 0 {
      assert forall i :: 0 <= i < |s| - 1 ==> s[1..][i] == s[i + 1];
      NoneBelow(s[1..], v);
    }
  }

  lemma {:induction false} AllAtMost(s: seq<real>, v: real)
    requires forall i :: 0 <= i < |s| ==> s[i] <= v
    ensures CountAtMost(s, v) == |s|
    decreases |s|
  {
    if |s| > 0 {
      assert forall i :: 0 <= i < |s| - 1 ==> s[1..][i] == s[i + 1];
      AllAtMost(s[1..], v);
    }
  }

  /** `percentile`: nearest rank in the ascending order; zero for no numbers.
      The result is the number that has fewer than `idx + 1` of the numbers
      below it and more than `idx` at or below it, `idx` being the rank
      `floor(p / 100 * n)` clamped to the list. */
  function Percentile(nums: seq<real>, p: real): (r: real)
    ensures |nums| == 0 ==> r == 0.0
    ensures |nums| > 0 ==> r in nums
    ensures |nums| > 0 ==> CountBelow(nums, r) <= RankIndex(p, |nums|) < CountAtMost(nums, r)
    ensures |nums| > 0 && p <= 0.0 ==> forall x :: x in nums ==> r <= x
    ensures |nums| > 0 && p >= 100.0 ==> forall x :: x in nums ==> x <= r
  {
    if |nums| == 0 then 0.0
    else
      var sorted := SortBy(nums, Ascending);
      var idx := RankIndex(p, |nums|);
      PercentileFacts(nums, sorted, idx);
      FewerBelow(nums, sorted, idx);
      MoreAtMost(nums, sorted, idx);
      sorted[idx]
  }

  lemma PercentileFacts(nums: seq<real>, sorted: seq<real>, idx: nat)
    requires multiset(sorted) == multiset(nums) && SortedBy(sorted, Ascending)
    requires idx < |sorted|
    ensures sorted[idx] in nums
    ensures idx == 0 ==> forall x :: x in nums ==> sorted[idx] <= x
    ensures idx == |sorted| - 1 ==> forall x :: x in nums ==> x <= sorted[idx]
  {
    assert sorted[idx] in multiset(sorted);
    forall x | x in nums
      ensures Ascending(sorted[0]) <= Ascending(x) <= Ascending(sorted[|sorted| - 1])
    {
      assert x in multiset(sorted);
      var j :| 0 <= j < |sorted| && sorted[j] == x;
    }
  }

  /** In ascending order, only the numbers in front of position `idx` can be
      smaller than the one there. */
  lemma FewerBelow(nums: seq<real>, sorted: seq<real>, idx: nat)
    requires multiset(sorted) == multiset(nums) && SortedBy(sorted, Ascending)
    requires idx < |sorted|
    ensures CountBelow(nums, sorted[idx]) <= idx
  {
    var v := sorted[idx];
    CountsPermutation(nums, sorted, v);
    var front, back := sorted[..idx], sorted[idx..];
    assert sorted == front + back;
    CountsAppend(front, back, v);
    forall i | 0 <= i < |back|
      ensures v <= back[i]
    {
      assert back[i] == sorted[idx + i];
      if i > 0 { assert Ascending(sorted[idx]) <= Ascending(sorted[idx + i]); }
    }
    NoneBelow(back, v);
  }

  /** In ascending order, the numbers up to and including position `idx` are
      all at most the one there. */
  lemma MoreAtMost(nums: seq<real>, sorted: seq<real>, idx: nat)
    requires multiset(sorted) == multiset(nums) && SortedBy(sorted, Ascending)
    requires idx < |sorted|
    ensures idx < CountAtMost(nums, sorted[idx])
  {
    var v := sorted[idx];
    CountsPermutation(nums, sorted, v);
    var front, back := sorted[..idx + 1], sorted[idx + 1..];
    assert sorted == front + back;
    CountsAppend(front, back, v);
    forall i | 0 <= i < |front|
      ensures front[i] <= v
    {
      assert front[i] == sorted[i];
      if i < idx { assert Ascending(sorted[i]) <= Ascending(sorted[idx]); }
    }
    AllAtMost(front, v);
  }

  /** On numbers already in ascending order the percentile is read off at its rank. */
  lemma PercentileOfSorted(nums: seq<real>, p: real)
    requires |nums| > 0 && SortedBy(nums, Ascending)
    ensures Percentile(nums, p) == nums[RankIndex(p, |nums|)]
  {
    SortedIsFixed(nums, Ascending);
  }

  /** The median of 1, 2, 3, 4, 5 is 3: the rank of p = 50 among five numbers is 2. */
  lemma PercentileExample(nums: seq<real>)
    requires nums == [1.0, 2.0, 3.0, 4.0, 5.0]
    ensures Percentile(nums, 50.0) == 3.0
  {
    AscendingExample(nums);
    PercentileOfSorted(nums, 50.0);
    MedianRank();
  }

  lemma AscendingExample(nums: seq<real>)
    requires nums == [1.0, 2.0, 3.0, 4.0, 5.0]
    ensures SortedBy(nums, Ascending)
  {
  }

  lemma MedianRank()
    ensures RankIndex(50.0, 5) == 2
  {
    assert 50.0 / 100.0 * 5.0 == 2.5;
  }

  /** The clamped rank never decreases as the percentile grows. */
  lemma RankIndexMonotone(p: real, q: real, n: nat)
    requires n > 0 && p <= q
    ensures RankIndex(p, n) <= RankIndex(q, n)
  {
    if p <= 0.0 {
      assert RankIndex(p, n) == 0;
    } else if q >= 100.0 {
      assert RankIndex(q, n) == n - 1;
    } else {
      MulLe(p / 100.0, q / 100.0, n as real);
      FloorMono(p / 100.0 * (n as real), q / 100.0 * (n as real));
    }
  }

  /** `Math.floor` is monotone. */
  lemma FloorMono(a: real, b: real)
    requires a <= b
    ensures a.Floor <= b.Floor
  {
  }

  /** The percentile is the number at its rank in the ascending order. */
  lemma PercentileAt(nums: seq<real>, p: real)
    requires |nums| > 0
    ensures Percentile(nums, p) == SortBy(nums, Ascending)[RankIndex(p, |nums|)]
  {
  }

  /** In ascending order a later position never holds a smaller number. */
  lemma AscendingAt(s: seq<real>, i: nat, j: nat)
    requires SortedBy(s, Ascending) && i <= j < |s|
    ensures s[i] <= s[j]
  {
    if i < j {
      assert Ascending(s[i]) <= Ascending(s[j]);
    }
  }

  /** A higher percentile never yields a smaller value. */
  lemma PercentileMonotone(nums: seq<real>, p: real, q: real)
    requires p <= q
    ensures Percentile(nums, p) <= Percentile(nums, q)
  {
    if |nums| > 0 {
      RankIndexMonotone(p, q, |nums|);
      PercentileAt(nums, p);
      PercentileAt(nums, q);
      AscendingAt(SortBy(nums, Ascending), RankIndex(p, |nums|), RankIndex(q, |nums|));
    }
  }

  // ------------------------------------------- topEmotions, emotionDistribution

  /** The sort key of `(a, b) => b.count - a.count`: larger counts first. */
  function ByCountDesc(e: LabelCount): real { -(e.count as real) }

  /** `r` is in non-increasing order of count. */
  ghost predicate NonIncreasing(r: seq<LabelCount>)
  {
    forall i, j :: 0 <= i < j < |r| ==> r[i].count >= r[j].count
  }

  /** Entries of `r` with equal counts are in the order their labels first occur in `names`. */
  ghost predicate TiesFirstSeen(r: seq<LabelCount>, names: seq<string>)
  {
    forall i, j :: 0 <= i < j < |r| && r[i].count == r[j].count ==>
      r[i].name in names && r[j].name in names
      && FirstIndex(names, r[i].name) < FirstIndex(names, r[j].name)
  }

  /** `r` lists labels of `names` with their exact number of occurrences, by
      non-increasing count, equal counts in order of first occurrence, each
      label at most once. */
  ghost predicate Ranked(r: seq<LabelCount>, names: seq<string>)
  {
    DistinctNames(r) && CountsExact(r, names) && NonIncreasing(r) && TiesFirstSeen(r, names)
  }

  /** `[...map.entries()].map(...).sort((a, b) => b.count - a.count)` after the
      counting pass over `names`: every label counted, ranked. */
  function RankedTally(names: seq<string>): (r: seq<LabelCount>)
    ensures Ranked(r, names)
    ensures Covers(r, names)
    ensures SumCounts(r) == |names|
    ensures |r| == |Tally(names)|
  {
    var t := Tally(names);
    var r := SortBy(t, ByCountDesc);
    RankedFacts(names, t, r);
    TallyTotal(names);
    SumCountsPermutation(t, r);
    r
  }

  lemma RankedFacts(names: seq<string>, t: seq<LabelCount>, r: seq<LabelCount>)
    requires CountsOf(t, names)
    requires SortedBy(r, ByCountDesc) && multiset(r) == multiset(t) && Stable(r, t, ByCountDesc)
    ensures Ranked(r, names)
    ensures Covers(r, names)
  {
    RankedCoverage(names, t, r);
    RankedTies(names, t, r);
    assert NonIncreasing(r) by {
      forall i, j | 0 <= i < j < |r|
        ensures r[i].count >= r[j].count
      {
        assert ByCountDesc(r[i]) <= ByCountDesc(r[j]);
      }
    }
  }

  /** A rearranged tally still counts exactly the labels of `names`. */
  lemma RankedCoverage(names: seq<string>, t: seq<LabelCount>, r: seq<LabelCount>)
    requires Covers(t, names) && CountsExact(t, names)
    requires multiset(r) == multiset(t)
    ensures CountsExact(r, names)
    ensures Covers(r, names)
  {
    forall i | 0 <= i < |r|
      ensures r[i].name in names && r[i].count == multiset(names)[r[i].name]
    {
      assert r[i] in multiset(t);
      var a :| 0 <= a < |t| && t[a] == r[i];
      assert Names(t)[a] == r[i].name;
    }
    forall n | n in Names(r)
      ensures n in names
    {
      var i :| 0 <= i < |r| && Names(r)[i] == n;
    }
    forall n | n in names
      ensures n in Names(r)
    {
      var a :| 0 <= a < |t| && Names(t)[a] == n;
      assert t[a] in multiset(r);
      var i :| 0 <= i < |r| && r[i] == t[a];
      assert Names(r)[i] == n;
    }
  }

  /** Entries of equal count (in particular, entries of one label) keep the
      first-seen order of the tally, so no label appears twice. */
  lemma RankedTies(names: seq<string>, t: seq<LabelCount>, r: seq<LabelCount>)
    requires CountsOf(t, names)
    requires multiset(r) == multiset(t) && Stable(r, t, ByCountDesc)
    ensures DistinctNames(r)
    ensures TiesFirstSeen(r, names)
  {
    forall i, j | 0 <= i < j < |r| && (r[i].count == r[j].count || r[i].name == r[j].name)
      ensures r[i].name != r[j].name
      ensures r[i].name in names && r[j].name in names
      ensures FirstIndex(names, r[i].name) < FirstIndex(names, r[j].name)
    {
      TieSource(names, t, r, i, j);
    }
  }

  lemma TieSource(names: seq<string>, t: seq<LabelCount>, r: seq<LabelCount>, i: nat, j: nat)
    requires DistinctNames(t) && CountsExact(t, names) && FirstSeenOrder(t, names)
    requires multiset(r) == multiset(t) && Stable(r, t, ByCountDesc)
    requires i < j < |r| && (r[i].count == r[j].count || r[i].name == r[j].name)
    ensures r[i].name != r[j].name
    ensures r[i].name in names && r[j].name in names
    ensures FirstIndex(names, r[i].name) < FirstIndex(names, r[j].name)
  {
    assert r[i] in multiset(t) && r[j] in multiset(t);
    var a0 :| 0 <= a0 < |t| && t[a0] == r[i];
    var b0 :| 0 <= b0 < |t| && t[b0] == r[j];
    assert ByCountDesc(r[i]) == ByCountDesc(r[j]);
    StableKeepsOrder(r, t, ByCountDesc, i, j);
    var a, b :| 0 <= a < b < |t| && t[a] == r[i] && t[b] == r[j];
  }

  /** A label `n` of `names` left out of `r` comes after every entry of `r`:
      it was counted no more often, and on a tie it was seen later. */
  ghost predicate RanksBehind(n: string, r: seq<LabelCount>, names: seq<string>)
    requires n in names
  {
    forall i :: 0 <= i < |r| ==>
      && multiset(names)[n] <= r[i].count
      && (multiset(names)[n] == r[i].count ==>
            r[i].name in names && FirstIndex(names, r[i].name) < FirstIndex(names, n))
  }

  /** `topEmotions(preds, topN)`: the `topN` most frequently detected labels,
      a tie at the cut going to the label detected first
      (`Array.prototype.slice(0, topN)` semantics, so a negative `topN` drops
      entries from the end). */
  function TopEmotions(preds: seq<Prediction>, topN: int): (r: seq<LabelCount>)
    ensures |r| == SliceEnd(|Tally(DetectedLabels(preds))|, topN)
    ensures Ranked(r, DetectedLabels(preds))
    ensures forall n :: n in DetectedLabels(preds) && n !in Names(r) ==> RanksBehind(n, r, DetectedLabels(preds))
    ensures forall n :: n in DetectedLabels(preds) && n !in Names(r) && topN >= 0 ==> |r| == topN
  {
    var names := DetectedLabels(preds);
    var all := RankedTally(names);
    var r := SliceTo(all, topN);
    TopPrefixFacts(names, all, r, topN);
    r
  }

  lemma TopPrefixFacts(names: seq<string>, all: seq<LabelCount>, r: seq<LabelCount>, topN: int)
    requires Ranked(all, names) && Covers(all, names)
    requires r == SliceTo(all, topN)
    ensures Ranked(r, names)
    ensures forall n :: n in names && n !in Names(r) ==> RanksBehind(n, r, names)
    ensures forall n :: n in names && n !in Names(r) && topN >= 0 ==> |r| == topN
  {
    RankedPrefix(names, all, |r|);
    OmittedLabels(names, all, r, topN);
  }

  lemma OmittedLabels(names: seq<string>, all: seq<LabelCount>, r: seq<LabelCount>, topN: int)
    requires CountsExact(all, names) && NonIncreasing(all) && TiesFirstSeen(all, names) && Covers(all, names)
    requires r == SliceTo(all, topN)
    ensures forall n :: n in names && n !in Names(r) ==> RanksBehind(n, r, names)
    ensures forall n :: n in names && n !in Names(r) && topN >= 0 ==> |r| == topN
  {
    forall n | n in names && n !in Names(r)
      ensures RanksBehind(n, r, names)
      ensures topN >= 0 ==> |r| == topN
    {
      var m :| 0 <= m < |all| && Names(all)[m] == n;
      OmittedLabel(names, all, r, m);
    }
  }

  /** A prefix of a ranking is a ranking. */
  lemma RankedPrefix(names: seq<string>, all: seq<LabelCount>, k: nat)
    requires Ranked(all, names) && k <= |all|
    ensures Ranked(all[..k], names)
  {
    var r := all[..k];
    assert forall i :: 0 <= i < k ==> r[i] == all[i];
  }

  /** A label left out of a prefix of the ranking is ranked behind all of it. */
  lemma OmittedLabel(names: seq<string>, all: seq<LabelCount>, r: seq<LabelCount>, m: nat)
    requires CountsExact(all, names) && NonIncreasing(all) && TiesFirstSeen(all, names)
    requires |r| <= |all| && r == all[..|r|]
    requires m < |all| && all[m].name !in Names(r)
    ensures |r| < |all|
    ensures all[m].name in names && RanksBehind(all[m].name, r, names)
  {
    assert Names(r) == Names(all)[..|r|];
    assert m >= |r|;
    forall i | 0 <= i < |r|
      ensures multiset(names)[all[m].name] <= r[i].count
      ensures multiset(names)[all[m].name] == r[i].count ==>
                r[i].name in names && FirstIndex(names, r[i].name) < FirstIndex(names, all[m].name)
    {
      assert r[i] == all[i];
    }
  }

  /** `emotionDistribution(preds)`: every label of every `top` list, counted and
      ranked, nothing cut off. Labels detected over threshold play no part. */
  function EmotionDistribution(preds: seq<Prediction>): (r: seq<LabelCount>)
    ensures Ranked(r, TopLabels(preds))
    ensures Covers(r, TopLabels(preds))
    ensures SumCounts(r) == |TopLabels(preds)|
  {
    RankedTally(TopLabels(preds))
  }
}

=== FILE: store.dfy ===
/** The prediction history (web/lib/store.ts): a list kept newest first, its
    three updaters, and the tolerant decoding of what was persisted. */
module Store {
  import opened Wrappers
  import opened Types
  import opened Seqs

  /** `add(p)`: `[p, ...prev]`, the new prediction in front. */
  function Add(prev: seq<Prediction>, p: Prediction): (r: seq<Prediction>)
    ensures |r| == |prev| + 1
    ensures r[0] == p && r[1..] == prev
    ensures multiset(r) == multiset(prev) + multiset{p}
  {
    [p] + prev
  }

  /** `addMany(ps)`: `[...ps.reverse(), ...prev]`, the batch reversed in front,
      so the batch's last element comes first and `prev` is kept as the tail. */
  function AddMany(prev: seq<Prediction>, ps: seq<Prediction>): (r: seq<Prediction>)
    ensures |r| == |ps| + |prev|
    ensures r[|ps|..] == prev
    ensures forall i :: 0 <= i < |ps| ==> r[i] == ps[|ps| - 1 - i]
    ensures |ps| > 0 ==> r[0] == ps[|ps| - 1]
    ensures multiset(r) == multiset(ps) + multiset(prev)
  {
    Reverse(ps) + prev
  }

  /** `clear()`: the history is emptied whatever it held. */
  function Clear(prev: seq<Prediction>): (r: seq<Prediction>)
    ensures |r| == 0
  {
    []
  }

  /** Adding the predictions one by one, in order. */
  function AddEach(prev: seq<Prediction>, ps: seq<Prediction>): seq<Prediction>
    decreases |ps|
  {
    if |ps| == 0 then prev else AddEach(Add(prev, ps[0]), ps[1..])
  }

  /** `addMany(ps)` is the same as calling `add` on each element of `ps` in turn. */
  lemma {:induction false} AddManyIsRepeatedAdd(prev: seq<Prediction>, ps: seq<Prediction>)
    ensures AddMany(prev, ps) == AddEach(prev, ps)
    decreases |ps|
  {
    if |ps| > 0 {
      var x, t := ps[0], ps[1..];
      calc {
        AddEach(prev, ps);
        AddEach([x] + prev, t);
        { AddManyIsRepeatedAdd([x] + prev, t); }
        Reverse(t) + ([x] + prev);
        { AppendAssoc(Reverse(t), [x], prev); }
        (Reverse(t) + [x]) + prev;
        { ReverseUnfold(ps); }
        AddMany(prev, ps);
      }
    }
  }

  /** What `JSON.parse` makes of a stored string: it throws, or it yields a
      value that is not an array, or an array (taken as predictions without
      checking its elements, as `v as Prediction[]` does). */
  datatype Parsed = Malformed | NotAnArray | AnArray(items: seq<Prediction>)

  /** `safeParse(json)`: no stored value or the empty string gives an empty
      history, as does anything that fails to parse or is not an array; an
      array is returned as parsed. */
  function SafeParse(json: Option<string>, parse: string -> Parsed): (r: seq<Prediction>)
    ensures json.None? || json == Some("") ==> r == []
    ensures json.Some? && json.value != "" && parse(json.value).AnArray? ==> r == parse(json.value).items
    ensures json.Some? && json.value != "" && !parse(json.value).AnArray? ==> r == []
  {
    match json
    case None => []
    case Some(s) =>
      if s == "" then []
      else
        match parse(s)
        case AnArray(items) => items
        case _ => []
  }

  /** The `localStorage` key the history is kept under. */
  const StorageKey: string := "emotion_demo_predictions_v1"

  /** `localStorage`: strings by key. */
  type Storage = map<string, string>

  /** `localStorage.getItem(key)`: `null` when there is no entry. */
  function GetItem(st: Storage, key: string): (r: Option<string>)
    ensures r.Some? <==> key in st
    ensures key in st ==> r.value == st[key]
  {
    if key in st then Some(st[key]) else None
  }

  /** The mount effect: the history is whatever `safeParse` makes of the stored entry. */
  function Load(st: Storage, parse: string -> Parsed): seq<Prediction>
  {
    SafeParse(GetItem(st, StorageKey), parse)
  }

  /** The effect run whenever the history changes:
      `localStorage.setItem(STORAGE_KEY, JSON.stringify(items))`. Only the
      history's own entry is written. */
  function Persist(st: Storage, items: seq<Prediction>, stringify: seq<Prediction> -> string): (st': Storage)
    ensures StorageKey in st' && st'[StorageKey] == stringify(items)
    ensures st'.Keys == st.Keys + {StorageKey}
    ensures forall key :: key in st && key != StorageKey ==> st'[key] == st[key]
  {
    st[StorageKey := stringify(items)]
  }

  /** The three updaters of the store. */
  datatype Update = AddOne(p: Prediction) | AddBatch(ps: seq<Prediction>) | ClearAll

  function Apply(items: seq<Prediction>, u: Update): seq<Prediction>
  {
    match u
    case AddOne(p) => Add(items, p)
    case AddBatch(ps) => AddMany(items, ps)
    case ClearAll => Clear(items)
  }

  /** A page session: each update changes the history, then the history is persisted. */
  function Run(items: seq<Prediction>, st: Storage, us: seq<Update>, stringify: seq<Prediction> -> string): (seq<Prediction>, Storage)
    decreases |us|
  {
    if |us| == 0 then (items, st)
    else
      var next := Apply(items, us[0]);
      Run(next, Persist(st, next, stringify), us[1..], stringify)
  }

  /** A fresh browser, with nothing stored, starts with an empty history. */
  lemma LoadFresh(parse: string -> Parsed)
    ensures Load(map[], parse) == []
  {
  }

  /** `JSON.stringify` writes `h` as a non-empty string (an array never
      serialises to "") that `JSON.parse` reads back as `h`. */
  predicate RoundTrips(h: seq<Prediction>, stringify: seq<Prediction> -> string, parse: string -> Parsed)
  {
    stringify(h) != "" && parse(stringify(h)) == AnArray(h)
  }

  /** Reloading the page after any session restores the history it ended
      with: once an update has been persisted (or when storage already held
      the history), the stored entry decodes to the current history, and no
      other storage entry is touched. The serialiser only has to round-trip
      the final history. */
  lemma {:induction false} ReloadRestores(items: seq<Prediction>, st: Storage, us: seq<Update>,
                                          stringify: seq<Prediction> -> string, parse: string -> Parsed)
    requires |us| > 0 ==> RoundTrips(Run(items, st, us, stringify).0, stringify, parse)
    requires |us| > 0 || Load(st, parse) == items
    ensures Load(Run(items, st, us, stringify).1, parse) == Run(items, st, us, stringify).0
    ensures forall key :: key in st && key != StorageKey ==>
              key in Run(items, st, us, stringify).1 && Run(items, st, us, stringify).1[key] == st[key]
    decreases |us|
  {
    if |us| > 0 {
      var next := Apply(items, us[0]);
      var st' := Persist(st, next, stringify);
      assert Run(items, st, us, stringify) == Run(next, st', us[1..], stringify);
      if |us| == 1 {
        assert Run(next, st', us[1..], stringify) == (next, st');
        assert Load(st', parse) == next;
      }
      ReloadRestores(next, st', us[1..], stringify, parse);
    }
  }
}

=== FILE: text.dfy ===
/** The JavaScript string operations the dashboard relies on: `trim`,
    `split("\n")`, `toLowerCase`, `includes` and the default `<` order of
    strings used by `Array.prototype.sort`. */
module Text {

  /** The characters `String.prototype.trim` removes: the ECMAScript WhiteSpace
      and LineTerminator code points. */
  predicate IsSpace(c: char)
  {
    || c == '\t' || c == '\n' || c == '\U{000B}' || c == '\U{000C}' || c == '\r'
    || c == ' ' || c == '\U{00A0}' || c == '\U{1680}'
    || ('\U{2000}' <= c <= '\U{200A}')
    || c == '\U{2028}' || c == '\U{2029}' || c == '\U{202F}' || c == '\U{205F}'
    || c == '\U{3000}' || c == '\U{FEFF}'
  }

  ghost predicate AllSpace(s: string)
  {
    forall k :: 0 <= k < |s| ==> IsSpace(s[k])
  }

  /** The first position at or after `i` that is not white space (or `|s|`). */
  function LeadEnd(s: string, i: nat): (n: nat)
    requires i <= |s|
    ensures i <= n <= |s|
    ensures forall k :: i <= k < n ==> IsSpace(s[k])
    ensures n == |s| || !IsSpace(s[n])
    decreases |s| - i
  {
    if i < |s| && IsSpace(s[i]) then LeadEnd(s, i + 1) else i
  }

  /** The position just after the last character before `j` that is not white
      space (or 0). */
  function TrailStart(s: string, j: nat): (n: nat)
    requires j <= |s|
    ensures n <= j
    ensures forall k :: n <= k < j ==> IsSpace(s[k])
    ensures n == 0 || !IsSpace(s[n - 1])
  {
    if j > 0 && IsSpace(s[j - 1]) then TrailStart(s, j - 1) else j
  }

  /** `r` is the slice of `s` starting at `i`, and all of `s` outside that slice is white space. */
  ghost predicate CutFrom(r: string, s: string, i: int)
  {
    0 <= i && i + |r| <= |s| && r == s[i..i + |r|] && AllSpace(s[..i]) && AllSpace(s[i + |r|..])
  }

  /** `String.prototype.trim`: the slice of `s` that neither starts nor ends with
      white space, everything cut away being white space. */
  function Trim(s: string): (r: string)
    ensures r == [] || (!IsSpace(r[0]) && !IsSpace(r[|r| - 1]))
    ensures exists i :: CutFrom(r, s, i)
  {
    var i := LeadEnd(s, 0);
    var j := TrailStart(s, |s|);
    if i < |s| then
      assert i < j;
      var r := s[i..j];
      assert CutFrom(r, s, i);
      r
    else
      assert CutFrom([], s, i);
      []
  }

  /** Trimming twice is trimming once. */
  lemma TrimIdempotent(s: string)
    ensures Trim(Trim(s)) == Trim(s)
  {
    var r := Trim(s);
    if |r| > 0 {
      assert LeadEnd(r, 0) == 0;
      assert TrailStart(r, |r|) == |r|;
      assert r[0..|r|] == r;
    }
  }

  /** A string trims to nothing exactly when it is all white space. */
  lemma TrimEmptyIff(s: string)
    ensures Trim(s) == [] <==> AllSpace(s)
  {
    var r := Trim(s);
    if r == [] {
      var i :| CutFrom(r, s, i);
      forall k | 0 <= k < |s|
        ensures IsSpace(s[k])
      {
        if k < i {
          assert s[..i][k] == s[k];
        } else {
          assert s[i..][k - i] == s[k];
        }
      }
    }
  }

  /** `Array.prototype.join(sep)` for a one-character separator; `parts` is never
      empty because `split` never returns an empty array. */
  function Join(parts: seq<string>, sep: char): string
    requires |parts| > 0
  {
    if |parts| == 1 then parts[0] else parts[0] + [sep] + Join(parts[1..], sep)
  }

  /** `String.prototype.split(sep)` for a one-character separator: the pieces
      between separators, with an empty piece at each end next to a separator. */
  function Split(s: string, sep: char): (parts: seq<string>)
    ensures |parts| > 0
    ensures forall i :: 0 <= i < |parts| ==> sep !in parts[i]
    ensures Join(parts, sep) == s
    decreases |s|
  {
    if |s| == 0 then [""]
    else
      var rest := Split(s[1..], sep);
      if s[0] == sep then
        assert s == [sep] + Join(rest, sep);
        [""] + rest
      else
        var parts := [[s[0]] + rest[0]] + rest[1..];
        JoinConsHead(s[0], rest, sep);
        assert s == [s[0]] + s[1..];
        parts
  }

  lemma JoinConsHead(c: char, parts: seq<string>, sep: char)
    requires |parts| > 0
    ensures Join([[c] + parts[0]] + parts[1..], sep) == [c] + Join(parts, sep)
  {
    var p := [[c] + parts[0]] + parts[1..];
    assert p[1..] == parts[1..];
  }

  /** `split` undoes `join` when no piece contains the separator. */
  lemma {:induction false} SplitJoin(parts: seq<string>, sep: char)
    requires |parts| > 0
    requires forall i :: 0 <= i < |parts| ==> sep !in parts[i]
    ensures Split(Join(parts, sep), sep) == parts
    decreases |Join(parts, sep)|, |parts[0]|
  {
    var s := Join(parts, sep);
    if |parts[0]| == 0 {
      if |parts| == 1 {
      } else {
        var tail := Join(parts[1..], sep);
        assert s == [sep] + tail;
        assert s[1..] == tail;
        SplitJoin(parts[1..], sep);
        assert parts == [""] + parts[1..];
      }
    } else {
      var c := parts[0][0];
      var shorter := [parts[0][1..]] + parts[1..];
      assert parts[0] == [c] + parts[0][1..];
      assert shorter[1..] == parts[1..];
      JoinConsHead(c, shorter, sep);
      assert [[c] + shorter[0]] + shorter[1..] == parts;
      assert s == [c] + Join(shorter, sep);
      assert s[1..] == Join(shorter, sep);
      forall i | 0 <= i < |shorter|
        ensures sep !in shorter[i]
      {
        if i == 0 {
          assert forall k :: 0 <= k < |parts[0][1..]| ==> parts[0][1..][k] == parts[0][k + 1];
        }
      }
      SplitJoin(shorter, sep);
      assert c != sep;
    }
  }

  /** Joining two lists of pieces puts one separator between their joins. */
  lemma {:induction false} JoinAppend(p: seq<string>, q: seq<string>, sep: char)
    requires |p| > 0 && |q| > 0
    ensures Join(p + q, sep) == Join(p, sep) + [sep] + Join(q, sep)
    decreases |p|
  {
    assert (p + q)[0] == p[0];
    if |p| > 1 {
      JoinAppend(p[1..], q, sep);
      assert (p + q)[1..] == p[1..] + q;
    } else {
      assert (p + q)[1..] == q;
    }
  }

  /** A string without the separator is a single piece. */
  lemma SplitNoSeparator(s: string, sep: char)
    requires sep !in s
    ensures Split(s, sep) == [s]
  {
    SplitJoin([s], sep);
  }

  /** Splitting at one separator splits each side on its own. */
  lemma SplitAppend(a: string, b: string, sep: char)
    ensures Split(a + [sep] + b, sep) == Split(a, sep) + Split(b, sep)
  {
    var p, q := Split(a, sep), Split(b, sep);
    JoinAppend(p, q, sep);
    NoSeparatorAppend(p, q, sep);
    SplitJoin(p + q, sep);
  }

  lemma NoSeparatorAppend(p: seq<string>, q: seq<string>, sep: char)
    requires forall i :: 0 <= i < |p| ==> sep !in p[i]
    requires forall i :: 0 <= i < |q| ==> sep !in q[i]
    ensures forall i :: 0 <= i < |p + q| ==> sep !in (p + q)[i]
  {
    forall i | 0 <= i < |p + q|
      ensures sep !in (p + q)[i]
    {
      if i >= |p| { assert (p + q)[i] == q[i - |p|]; }
    }
  }

  /** A joined string is all white space exactly when the separator is white
      space (or unused) and every piece is. */
  lemma {:induction false} AllSpaceJoin(parts: seq<string>, sep: char)
    requires |parts| > 0 && IsSpace(sep)
    ensures AllSpace(Join(parts, sep)) <==> forall i :: 0 <= i < |parts| ==> AllSpace(parts[i])
    decreases |parts|
  {
    if |parts| > 1 {
      AllSpaceJoin(parts[1..], sep);
      var rest := Join(parts[1..], sep);
      var j := parts[0] + [sep] + rest;
      AllSpaceConcat(parts[0] + [sep], rest);
      AllSpaceConcat(parts[0], [sep]);
      assert forall i :: 1 <= i < |parts| ==> parts[i] == parts[1..][i - 1];
    }
  }

  lemma AllSpaceConcat(a: string, b: string)
    ensures AllSpace(a + b) <==> AllSpace(a) && AllSpace(b)
  {
    if AllSpace(a + b) {
      assert forall k :: 0 <= k < |b| ==> b[k] == (a + b)[|a| + k];
      assert forall k :: 0 <= k < |a| ==> a[k] == (a + b)[k];
    }
    if AllSpace(a) && AllSpace(b) {
      forall k | 0 <= k < |a + b|
        ensures IsSpace((a + b)[k])
      {
        if k < |a| {
          assert (a + b)[k] == a[k];
        } else {
          assert (a + b)[k] == b[k - |a|];
        }
      }
    }
  }

  /** ASCII `toLowerCase`: `A`..`Z` map to `a`..`z`, every other character is kept. */
  function LowerChar(c: char): char
  {
    if 'A' <= c <= 'Z' then (c as int + 32) as char else c
  }

  function ToLower(s: string): (r: string)
    ensures |r| == |s|
    ensures forall i :: 0 <= i < |s| ==> r[i] == LowerChar(s[i])
  {
    if |s| == 0 then [] else [LowerChar(s[0])] + ToLower(s[1..])
  }

  /** `needle` occurs in `hay` at position `i`. */
  ghost predicate OccursAt(hay: string, needle: string, i: int)
  {
    0 <= i && i + |needle| <= |hay| && hay[i..i + |needle|] == needle
  }

  /** `String.prototype.includes`: `needle` occurs as a contiguous slice of `hay`. */
  function Contains(hay: string, needle: string): (b: bool)
    ensures b <==> exists i :: OccursAt(hay, needle, i)
    decreases |hay|
  {
    if |needle| > |hay| then false
    else if hay[..|needle|] == needle then
      assert OccursAt(hay, needle, 0);
      true
    else
      ContainsStep(hay, needle);
      Contains(hay[1..], needle)
  }

  /** An occurrence in `hay` past position 0 is an occurrence in `hay[1..]`, and back. */
  lemma ContainsStep(hay: string, needle: string)
    requires |hay| > 0 && !OccursAt(hay, needle, 0)
    ensures (exists i :: OccursAt(hay, needle, i)) <==> (exists i :: OccursAt(hay[1..], needle, i))
  {
    forall i | OccursAt(hay, needle, i)
      ensures OccursAt(hay[1..], needle, i - 1)
    {
      SliceShift(hay, i - 1, |needle|);
    }
    forall i | OccursAt(hay[1..], needle, i)
      ensures OccursAt(hay, needle, i + 1)
    {
      SliceShift(hay, i, |needle|);
    }
  }

  lemma SliceShift(s: string, j: nat, len: nat)
    requires j + 1 + len <= |s|
    ensures s[j + 1..j + 1 + len] == s[1..][j..j + len]
  {
    var a, b := s[j + 1..j + 1 + len], s[1..][j..j + len];
    assert |a| == |b|;
    assert forall k :: 0 <= k < |a| ==> a[k] == s[j + 1 + k] == b[k];
  }

  /** The order `Array.prototype.sort` uses for strings: lexicographic by character. */
  predicate LexLess(a: string, b: string)
  {
    if |a| == 0 then |b| > 0
    else if |b| == 0 then false
    else if a[0] != b[0] then a[0] < b[0]
    else LexLess(a[1..], b[1..])
  }

  lemma {:induction false} LexLessIrreflexive(a: string)
    ensures !LexLess(a, a)
    decreases |a|
  {
    if |a| > 0 {
      LexLessIrreflexive(a[1..]);
    }
  }

  lemma {:induction false} LexLessTotal(a: string, b: string)
    ensures a == b || LexLess(a, b) || LexLess(b, a)
    decreases |a|
  {
    if |a| > 0 && |b| > 0 && a[0] == b[0] {
      LexLessTotal(a[1..], b[1..]);
      if a[1..] == b[1..] {
        assert a == [a[0]] + a[1..] && b == [b[0]] + b[1..];
      }
    }
  }

  lemma {:induction false} LexLessTransitive(a: string, b: string, c: string)
    requires LexLess(a, b) && LexLess(b, c)
    ensures LexLess(a, c)
    decreases |a|
  {
    if |a| > 0 && a[0] == b[0] && b[0] == c[0] {
      LexLessTransitive(a[1..], b[1..], c[1..]);
    }
  }
}

=== FILE: trend.dfy ===
/** `rollingTrend` (web/lib/stats.ts): one chart point per prediction, counting
    the requested labels over a trailing window of the history in ascending
    `createdAt` order. A point is a `Record<string, number>`: the key `"i"`
    holds the 1-based position and every requested label holds its count. */
module Trend {
  import opened Types
  import opened Sorting

  /** The sort key of `(a, b) => a.createdAt - b.createdAt`: oldest first. */
  function Chronological(p: Prediction): real { p.createdAt as real }

  /** The key of a point that carries its position. */
  const IndexKey: string := "i"

  /** The labels of a list, as a set of keys. */
  function KeySet(labels: seq<string>): (r: set<string>)
    ensures forall l :: l in r <==> l in labels
  {
    set l | l in labels
  }

  /** `ordered.slice(Math.max(0, k - w + 1), k + 1)`: the (at most `w`) items
      that end with item `k`. A window size of zero or less gives no items,
      because `slice` with a start past its end is empty. */
  function Window(ordered: seq<Prediction>, k: nat, w: int): (r: seq<Prediction>)
    requires k < |ordered|
    ensures |r| == if w <= 0 then 0 else if w > k + 1 then k + 1 else w
    ensures r == ordered[k + 1 - |r|..k + 1]
  {
    var start := if k - w + 1 > 0 then k - w + 1 else 0;
    if start <= k + 1 then ordered[start..k + 1] else []
  }

  /** `for (const label of labels) point[label] = 0`. */
  function Zeroed(m: map<string, int>, labels: seq<string>): (r: map<string, int>)
    ensures r.Keys == m.Keys + KeySet(labels)
    ensures forall l :: l in labels ==> r[l] == 0
    ensures forall x :: x in m && x !in labels ==> r[x] == m[x]
    decreases |labels|
  {
    if |labels| == 0 then m
    else Zeroed(m[labels[0] := 0], labels[1..])
  }

  /** `if (labels.includes(l)) point[l] += 1` for each label `l` of `ls`, in order:
      every requested key grows by its number of occurrences, nothing else moves. */
  function CountInto(m: map<string, int>, ls: seq<string>, labels: seq<string>): (r: map<string, int>)
    requires forall l :: l in labels ==> l in m
    ensures r.Keys == m.Keys
    ensures forall x :: x in m ==> r[x] == m[x] + (if x in labels then multiset(ls)[x] else 0)
  {
    if |ls| == 0 then m
    else
      var m' := if ls[0] in labels then m[ls[0] := m[ls[0]] + 1] else m;
      assert ls == [ls[0]] + ls[1..];
      CountInto(m', ls[1..], labels)
  }

  /** Point `k` of the trend over the chronologically ordered history: the
      position under `"i"`, then every requested label zeroed, then the
      window's detections counted. */
  function Point(ordered: seq<Prediction>, k: nat, labels: seq<string>, w: int): map<string, int>
    requires k < |ordered|
  {
    CountInto(Zeroed(map[IndexKey := k + 1], labels), DetectedLabels(Window(ordered, k, w)), labels)
  }

  /** `rollingTrend(preds, labels, w)`: a stable oldest-first sort, then one
      point per position. Point `k` has a key for the position and for every
      requested label and no other; each requested label holds its number of
      detections among the items `max(0, k - w + 1) .. k` of the stable
      oldest-first order; the position is `k + 1` unless a requested label
      `"i"` overwrote it. */
  function RollingTrend(preds: seq<Prediction>, labels: seq<string>, w: int): (r: seq<map<string, int>>)
    ensures |r| == |preds|
    ensures forall k :: 0 <= k < |r| ==> r[k].Keys == {IndexKey} + KeySet(labels)
    ensures forall k, l :: 0 <= k < |r| && l in labels ==>
              l in r[k] && r[k][l] == multiset(DetectedLabels(Window(SortBy(preds, Chronological), k, w)))[l]
    ensures forall k :: 0 <= k < |r| && IndexKey !in labels ==> r[k][IndexKey] == k + 1
  {
    var ordered := SortBy(preds, Chronological);
    var r := seq(|ordered|, k requires 0 <= k < |ordered| => Point(ordered, k, labels, w));
    assert forall k :: 0 <= k < |r| ==> PointHolds(r[k], ordered, k, labels, w) by {
      forall k | 0 <= k < |r|
        ensures PointHolds(r[k], ordered, k, labels, w)
      {
        PointFacts(ordered, k, labels, w);
      }
    }
    r
  }

  /** The facts a trend point keeps, as `RollingTrend` states them. */
  ghost predicate PointHolds(pt: map<string, int>, ordered: seq<Prediction>, k: nat, labels: seq<string>, w: int)
    requires k < |ordered|
  {
    && pt.Keys == {IndexKey} + KeySet(labels)
    && (forall l :: l in labels ==> pt[l] == multiset(DetectedLabels(Window(ordered, k, w)))[l])
    && (IndexKey !in labels ==> pt[IndexKey] == k + 1)
  }

  lemma PointFacts(ordered: seq<Prediction>, k: nat, labels: seq<string>, w: int)
    requires k < |ordered|
    ensures PointHolds(Point(ordered, k, labels, w), ordered, k, labels, w)
  {
    var z := Zeroed(map[IndexKey := k + 1], labels);
    var ls := DetectedLabels(Window(ordered, k, w));
    var pt := CountInto(z, ls, labels);
    assert z.Keys == {IndexKey} + KeySet(labels);
    forall l | l in labels
      ensures pt[l] == multiset(ls)[l]
    {
      assert z[l] == 0;
    }
    if IndexKey !in labels {
      assert z[IndexKey] == k + 1;
    }
  }

  /** With a window at least as long as the history, the last point counts
      every detection in the history. */
  lemma TrendLastIsTotal(preds: seq<Prediction>, labels: seq<string>, w: int)
    requires |preds| > 0 && w >= |preds|
    ensures forall l :: l in labels ==>
              RollingTrend(preds, labels, w)[|preds| - 1][l] == multiset(DetectedLabels(preds))[l]
  {
    var ordered := SortBy(preds, Chronological);
    assert Window(ordered, |preds| - 1, w) == ordered;
    DetectedLabelsPermutation(ordered, preds);
  }

  /** A longer window holds the shorter one's items, plus older ones. */
  lemma {:induction false} WindowGrows(ordered: seq<Prediction>, k: nat, w: int, w': int)
    requires k < |ordered| && w <= w'
    ensures multiset(DetectedLabels(Window(ordered, k, w))) <= multiset(DetectedLabels(Window(ordered, k, w')))
  {
    var small, big := Window(ordered, k, w), Window(ordered, k, w');
    var a, b := k + 1 - |big|, k + 1 - |small|;
    assert big == ordered[a..b] + small;
    DetectedLabelsAppend(ordered[a..b], small);
  }

  /** Widening the window never lowers a count. */
  lemma TrendMonotoneInWindow(preds: seq<Prediction>, labels: seq<string>, w: int, w': int, k: nat, l: string)
    requires w <= w' && k < |preds| && l in labels
    ensures RollingTrend(preds, labels, w)[k][l] <= RollingTrend(preds, labels, w')[k][l]
  {
    WindowGrows(SortBy(preds, Chronological), k, w, w');
  }

  /** Three predictions in time order, each detecting just the label `l`,
      with a window of two: the points are at positions 1, 2, 3 and count
      1, 2, 2 (the second point's window already holds two items). */
  lemma ThreeItemExample(preds: seq<Prediction>, l: string)
    requires |preds| == 3 && l != IndexKey
    requires preds[0].createdAt < preds[1].createdAt < preds[2].createdAt
    requires forall k :: 0 <= k < 3 ==> Labels(preds[k].labelsOverThreshold) == [l]
    ensures var r := RollingTrend(preds, [l], 2);
            && r[0][l] == 1 && r[1][l] == 2 && r[2][l] == 2
            && r[0][IndexKey] == 1 && r[1][IndexKey] == 2 && r[2][IndexKey] == 3
  {
    assert SortedBy(preds, Chronological);
    SortedIsFixed(preds, Chronological);
    OneLabel(preds[0], l);
    OneLabel(preds[1], l);
    OneLabel(preds[2], l);
    FirstPoint(preds, l);
    LaterPoint(preds, l, 1);
    LaterPoint(preds, l, 2);
  }

  lemma FirstPoint(preds: seq<Prediction>, l: string)
    requires |preds| == 3 && SortBy(preds, Chronological) == preds && l != IndexKey
    requires DetectedLabels([preds[0]]) == [l]
    ensures RollingTrend(preds, [l], 2)[0][l] == 1
    ensures RollingTrend(preds, [l], 2)[0][IndexKey] == 1
  {
    FirstWindow(preds);
    PointAt(preds, l, 0, 1);
  }

  lemma FirstWindow(preds: seq<Prediction>)
    requires |preds| > 0
    ensures Window(preds, 0, 2) == [preds[0]]
  {
  }

  lemma LaterPoint(preds: seq<Prediction>, l: string, k: nat)
    requires |preds| == 3 && SortBy(preds, Chronological) == preds && l != IndexKey
    requires k == 1 || k == 2
    requires DetectedLabels([preds[k - 1]]) == [l] && DetectedLabels([preds[k]]) == [l]
    ensures RollingTrend(preds, [l], 2)[k][l] == 2
    ensures RollingTrend(preds, [l], 2)[k][IndexKey] == k + 1
  {
    TwoLabels(preds, k, l);
    assert Window(preds, k, 2) == preds[k - 1..k + 1];
    PointAt(preds, l, k, 2);
  }

  /** Point `k` of the window-two trend of label `l` over the already ordered
      `preds`, given the count over its window. */
  lemma PointAt(preds: seq<Prediction>, l: string, k: nat, count: nat)
    requires k < |preds| && SortBy(preds, Chronological) == preds && l != IndexKey
    requires multiset(DetectedLabels(Window(preds, k, 2)))[l] == count
    ensures RollingTrend(preds, [l], 2)[k][l] == count
    ensures RollingTrend(preds, [l], 2)[k][IndexKey] == k + 1
  {
    assert l in [l] && IndexKey !in [l];
    TrendAt(preds, [l], 2, k, l);
  }

  /** One point of the trend, read off `RollingTrend`'s contract. */
  lemma TrendAt(preds: seq<Prediction>, labels: seq<string>, w: int, k: nat, l: string)
    requires k < |preds| && l in labels
    ensures RollingTrend(preds, labels, w)[k][l]
            == multiset(DetectedLabels(Window(SortBy(preds, Chronological), k, w)))[l]
    ensures IndexKey !in labels ==> RollingTrend(preds, labels, w)[k][IndexKey] == k + 1
  {
  }

  lemma OneLabel(p: Prediction, l: string)
    requires Labels(p.labelsOverThreshold) == [l]
    ensures DetectedLabels([p]) == [l]
  {
    assert [p][1..] == [];
  }

  lemma TwoLabels(preds: seq<Prediction>, k: nat, l: string)
    requires 0 < k < |preds|
    requires DetectedLabels([preds[k - 1]]) == [l] && DetectedLabels([preds[k]]) == [l]
    ensures multiset(DetectedLabels(preds[k - 1..k + 1]))[l] == 2
  {
    assert preds[k - 1..k + 1] == [preds[k - 1]] + [preds[k]];
    DetectedLabelsAppend([preds[k - 1]], [preds[k]]);
  }
}

=== FILE: types.dfy ===
/** The records exchanged between the prediction server and the dashboard
    (web/lib/types.ts). Scores are exact reals, timestamps unbounded integers. */
module Types {
  import Seqs

  /** One scored emotion label (`label` is a Dafny keyword, hence `name`). */
  datatype LabelScore = LabelScore(name: string, score: real)

  /** One analysed comment as stored in the history. */
  datatype Prediction = Prediction(
    id: string,
    text: string,
    createdAt: int,
    threshold: real,
    top: seq<LabelScore>,
    labelsOverThreshold: seq<LabelScore>
  )

  /** The labels of a list of scored labels, in order. */
  function Labels(ls: seq<LabelScore>): (r: seq<string>)
    ensures |r| == |ls|
    ensures forall i :: 0 <= i < |ls| ==> r[i] == ls[i].name
  {
    if |ls| == 0 then [] else [ls[0].name] + Labels(ls[1..])
  }

  /** Every label detected over threshold, prediction by prediction, in order. */
  function DetectedLabels(preds: seq<Prediction>): seq<string>
  {
    if |preds| == 0 then []
    else Labels(preds[0].labelsOverThreshold) + DetectedLabels(preds[1..])
  }

  /** Every label of every `top` list, prediction by prediction, in order. */
  function TopLabels(preds: seq<Prediction>): seq<string>
  {
    if |preds| == 0 then []
    else Labels(preds[0].top) + TopLabels(preds[1..])
  }

  lemma DetectedLabelsAppend(a: seq<Prediction>, b: seq<Prediction>)
    ensures DetectedLabels(a + b) == DetectedLabels(a) + DetectedLabels(b)
  {
    if |a| > 0 {
      assert (a + b)[1..] == a[1..] + b;
      DetectedLabelsAppend(a[1..], b);
    } else {
      assert a + b == b;
    }
  }

  /** Reordering the predictions does not change the multiset of detected labels. */
  lemma {:induction false} DetectedLabelsPermutation(a: seq<Prediction>, b: seq<Prediction>)
    requires multiset(a) == multiset(b)
    ensures multiset(DetectedLabels(a)) == multiset(DetectedLabels(b))
    decreases |a|
  {
    if |a| == 0 {
      assert |b| == |multiset(b)| == 0;
    } else {
      var x := a[0];
      var i := Seqs.PermutationHead(a, b);
      var pre, post := b[..i], b[i + 1..];
      DetectedLabelsPermutation(a[1..], pre + post);
      DetectedLabelsAppend(pre, [x] + post);
      DetectedLabelsAppend([x], post);
      DetectedLabelsAppend(pre, post);
      assert DetectedLabels([x]) == Labels(x.labelsOverThreshold);
      assert b == pre + ([x] + post);
      var mx := multiset(Labels(x.labelsOverThreshold));
      calc {
        multiset(DetectedLabels(b));
        multiset(DetectedLabels(pre)) + mx + multiset(DetectedLabels(post));
        mx + multiset(DetectedLabels(pre + post));
        mx + multiset(DetectedLabels(a[1..]));
        multiset(DetectedLabels(a));
      }
    }
  }
}

=== FILE: wrappers.dfy ===
/** Failure-compatible helper datatypes shared by the whole model. */
module Wrappers {

  /** A value that may be absent (JavaScript `null` / Python `None`). */
  datatype Option<+T> = None | Some(value: T)

  /** The outcome of an operation that may raise: a value or an error message. */
  datatype Result<+R, +E> = Success(value: R) | Failure(error: E)
}
